=== FILE: README.md ===
# Lifit client: a Dafny model of its screen logic

Lifit is a React Native fitness social network. This project models the client's sequential logic:

- **Session.** The user context keeps the bearer token in memory and in the device's key-value store. The HTTP interceptors attach that token to every request and drop it on a 401 or 403.
- **Comments bottom sheet.** It fetches the whole comment list and enriches each comment with its author's profile. It shows ten comments per page. An in-flight guard stops loads overlapping. It also labels each comment's age and refuses blank comments.
- **Count abbreviation.** The post and event cards share `formatNumber`: `1500` is shown as `1,5 mil`.
- **Event card.** It shows the day-distance badge (`HOJE`, `AMANHÃ`, `HÁ 3 DIAS`, `EM 5 DIAS`), handles the attendance toggle and builds the participant summary.
- **Create-event screen.** It validates the form, uploads the image, builds the `Y-MM-DDTHH:MM:00` timestamps and publishes.
- **Goal screens.** One creates a goal with a deadline. The other lists goals and flips each between pending and done.
- **Edit-profile screen.** It picks and uploads a photo, validates the form and saves it.
- **New-post form.** It normalises the image URI it receives and then posts.
- **Camera screen.** It checks the camera permission, toggles the camera facing and copies the picked image under a name that keeps its extension.
- **Swipeable tab wrapper.** A long enough horizontal pan moves to the next tab; the four tabs form a ring.
- **Notification row.**

How the model is built:

- Each screen or component is one module.
- Each asynchronous handler is a pure function from the state and the outcomes of everything it awaits (storage, the server, the uploader, the picker, the clock) to the resulting state, the request sent and the alerts shown.
- `Wrappers` holds `Option` and `Result`.
- `Text` holds the JavaScript string and number primitives the screens use: `String(n)`, `padStart`, `trim`, `startsWith`, ASCII case-insensitive matching and string order.
- `Calendar` holds the local date and time fields of a `Date` and the two serialisers built from them.

Where the prose description of the system and the code disagree, the model follows the code:

- The response interceptor removes the stored token on a 403 as well as on a 401.
- Nothing retries a failed request.
- The new-post form uploads its image through a helper that never returns the uploaded URL (see Findings).

## Model

| member | source | states |
|---|---|---|
| Session.AttachToken | lifit/config/axiosConfig.ts:11-22 | A request gets `Authorization: Bearer <token>` exactly when the store holds a non-empty token. The URL and all other headers are untouched. A failed storage read rejects the request, so it is not sent. |
| Session.InterceptResponse | lifit/config/axiosConfig.ts:25-35 | Every reply passes through unchanged, and any other error is rejected with itself. A 401 or 403 removes the stored token, raises the alert and rejects with the HTTP error. If that removal fails, no alert is raised, the token stays, and the caller sees the storage error. Nothing else in the store changes. The alert is raised exactly on an auth failure whose removal succeeds. |
| Session.NoBearerAfterAuthFailure | lifit/config/axiosConfig.ts:11-35 | After a 401 or 403, the next request goes out exactly as the caller built it. |
| Session.FailedRemovalKeepsBearer | lifit/config/axiosConfig.ts:25-35 | When the removal after a 401 or 403 fails, the next request still carries the stale bearer token. |
| Session.Start | lifit/contexts/UserContext.tsx:53-70 | On start-up the memory token and the HTTP token both become the stored token. They become null when the token is missing, empty or unreadable. Loading ends either way. |
| Session.SetToken | lifit/contexts/UserContext.tsx:72-93 | Both in-memory tokens take the new value at once. A non-empty token is written under the token key, and a failed write is swallowed. Null or empty removes the key, and only a failed removal rejects. Every other key in the store is unchanged, and a failed storage call changes nothing in it. |
| Session.Logout | lifit/contexts/UserContext.tsx:95-100 | The profile and both tokens are cleared, and the loading flag is untouched. A successful removal deletes only the token key from the store and resolves. A failed removal leaves the store as it was, and then the call rejects. |
| Session.LogoutIdempotent | lifit/contexts/UserContext.tsx:95-100 | Logging out twice leaves the same state as logging out once. |
| Session.UseUser | lifit/contexts/UserContext.tsx:109-115 | The hook returns the provider's context, or fails with `errou useUser` when there is none. |
| Session.SignInThenAuthFailure | lifit/contexts/UserContext.tsx:72-93 | After signing in, the next request carries the bearer token. Once a call gets a 401 or 403, the request after it carries no header. |
| Session.FailedWriteLeavesRequestsUnauthenticated | lifit/contexts/UserContext.tsx:79-88 | When the token write fails, the context still holds the token but requests go out without it. |
| Session.RestartAfterSignIn | lifit/contexts/UserContext.tsx:53-93 | A non-empty token persisted by `setToken` is the token the next start-up loads. |
| Session.RestartAfterLogout | lifit/contexts/UserContext.tsx:53-100 | After a successful logout, the next start-up loads no token. |
| Comments.Enrich | lifit/components/CommentsBottomSheet.tsx:88-119 | Id, text and date come from the comment. The author comes from the profile, with an empty name falling back to the username. If the lookup failed, the author comes from the comment's own fields and has no photo. |
| Comments.EnrichAll | lifit/components/CommentsBottomSheet.tsx:87-121 | The enriched list keeps the fetched list's length and order, element by element. |
| Comments.Slice | lifit/components/CommentsBottomSheet.tsx:126 | `slice` clips its bounds to the list, and each element is the one at the offset position. |
| Comments.Begin | lifit/components/CommentsBottomSheet.tsx:65-74 | A call made while a load is in flight does nothing. Otherwise it raises the matching flag, and a reset returns to page 0 at once. |
| Comments.Complete | lifit/components/CommentsBottomSheet.tsx:123-145 | A reset shows the first ten comments. A load-more appends the page after the captured one and advances the page. `hasMore` says whether the list goes past the slice. A failed fetch changes only the flags. Both flags drop. |
| Comments.Load | lifit/components/CommentsBottomSheet.tsx:65-146 | A guarded call leaves the state as it was. A completed call leaves nothing in flight. A failed call keeps the shown list. |
| Comments.Close | lifit/components/CommentsBottomSheet.tsx:57-62 | Closing empties the list, returns to page 0 and offers more. The loading flags are left alone. |
| Comments.OnVisibility | lifit/components/CommentsBottomSheet.tsx:54-63 | Closing the sheet empties it and starts over at page 0. Opening it runs a reset load, which shows the first page of the fetched list and leaves nothing in flight. |
| Comments.HasMoreIffUnshown | lifit/components/CommentsBottomSheet.tsx:139 | When a prefix is shown, the "more" button appears exactly when some comment is still unshown. |
| Comments.ResetShowsFirstPage | lifit/components/CommentsBottomSheet.tsx:124-139 | Opening the sheet shows the first page of the enriched list. |
| Comments.LoadMoreExtendsPrefix | lifit/components/CommentsBottomSheet.tsx:124-139 | Over an unchanged server list, a load-more extends the shown prefix by exactly one page, with no gap and no duplicate. |
| Comments.NextPageExtendsPrefix | lifit/components/CommentsBottomSheet.tsx:126-139 | Appending the next page's slice to a shown prefix, with `hasMore` set from the slice's end, shows a prefix one page longer. |
| Comments.OpenThenLoadMores | lifit/components/CommentsBottomSheet.tsx:124-139 | Opening and tapping "more" k times shows exactly the first k+1 pages of the list. |
| Comments.LoadMoresFromPrefix | lifit/components/CommentsBottomSheet.tsx:124-139 | From any shown prefix, k load-mores advance k pages and still show a prefix. |
| Comments.Endpoint | lifit/components/CommentsBottomSheet.tsx:76-78 | A truthy post id selects the post's comments. Otherwise the event's are used, with `undefined` in the path when the event id is absent. |
| Comments.CommentToSend | lifit/components/CommentsBottomSheet.tsx:149-158 | Nothing is sent exactly when the text is all whitespace. Otherwise the trimmed, non-empty text is sent, with falsy ids sent as null. |
| Comments.SendComment | lifit/components/CommentsBottomSheet.tsx:148-171 | Only a successful post clears the box, reloads from the start and calls the optional `onCommentAdded` callback. A blank text does nothing. The sending flag always ends false. |
| Comments.AfterSend | lifit/components/CommentsBottomSheet.tsx:160-161 | A send that reloads runs a reset load, which shows the first page of the fetched list. Any other send leaves the sheet unchanged. |
| Comments.SentCommentShowsFirstPage | lifit/components/CommentsBottomSheet.tsx:148-171 | After a successful send of a non-blank text, the sheet reloads and shows the first page of the list the server returns. |
| Comments.FailedSendCanBeRetried | lifit/components/CommentsBottomSheet.tsx:148-171 | A failed send keeps the text in the box, so sending again posts the same body. |
| Comments.FailedSendKeepsSheet | lifit/components/CommentsBottomSheet.tsx:148-171 | A failed or blank send leaves the sheet's list, page and flags as they were. |
| Comments.AgeOf | lifit/components/CommentsBottomSheet.tsx:173-184 | Ages under an hour are in minutes, under a day in hours, and beyond that in days. Each count is the elapsed time rounded down in its unit. |
| Comments.AgeTextRoundTrip | lifit/components/CommentsBottomSheet.tsx:181-183 | Every `Nmin`, `Nh` or `Nd` label reads back as the age it shows. |
| Comments.FormatAgeRoundTrip | lifit/components/CommentsBottomSheet.tsx:173-184 | The label for an elapsed time reads back as the rounded-down age, so different ages never share a label. |
| Counts.Tenths | lifit/components/eventCard/index.tsx:9 | The one decimal shown is the nearest tenth of a thousand, within half a hundred. |
| Counts.FormatNumber | lifit/components/postCard/index.tsx:7-12 | Counts below 1000 are returned unchanged. Larger ones become a text ending in ` mil`. |
| Counts.ReadFormatNumber | lifit/components/eventCard/index.tsx:7-12 | Every abbreviated count reads back as its value in tenths of a thousand, with whole thousands shown without a decimal. |
| Counts.TenthsNearest | lifit/components/eventCard/index.tsx:9 | Away from ties, every other tenth is further from the count than the one shown. |
| Counts.ThousandsShape | lifit/components/eventCard/index.tsx:9 | Whole thousands have no decimal. Anything else has exactly one digit after a comma. |
| EventCard.DaysUntil | lifit/components/eventCard/index.tsx:63-67 | The day distance is the ceiling of the time to the event, in whole days. |
| EventCard.DaysUntilUnique | lifit/components/eventCard/index.tsx:67 | No other whole number of days satisfies the ceiling bounds. |
| EventCard.DayLabel | lifit/components/eventCard/index.tsx:69-72 | The badge is `HOJE` exactly for day 0 and `AMANHÃ` exactly for day 1. It starts with `HÁ ` exactly for past days and with `EM ` exactly for two or more days ahead. |
| EventCard.ReadDayLabelRoundTrip | lifit/components/eventCard/index.tsx:69-72 | Every badge reads back as its day count, so different counts never share a badge. |
| EventCard.TogglePresence | lifit/components/eventCard/index.tsx:75-86 | A confirmed attendee sends DELETE and anyone else sends POST, to `/evento/<id>/confirmar`. The optional `onPresencaToggle` callback, when given, hears the flipped flag only on success. |
| EventCard.ToggleTwiceRestores | lifit/components/eventCard/index.tsx:75-86 | A second successful tap sends the opposite request and restores the original flag. |
| EventCard.AvatarUri | lifit/components/eventCard/index.tsx:151 | A missing or empty photo falls back to the placeholder avatar, so the URI is never empty. |
| EventCard.LeadName | lifit/components/eventCard/index.tsx:157 | The first participant's username is used, or `pessoas` when there is none or it is empty. |
| EventCard.ParticipantSummary | lifit/components/eventCard/index.tsx:145-159 | The block appears only for a positive count. It shows at most three avatars, one per leading participant. The text is `Curtido por <lead>...` for one participant and `Curtido por <lead> e outros <n-1>...` for n > 1. |
| EventCard.OthersShownIffSeveral | lifit/components/eventCard/index.tsx:158 | The ` e outros` clause appears exactly when there is more than one participant. |
| EventCard.OthersInjective | lifit/components/eventCard/index.tsx:158 | Different positive counts give different ` e outros` clauses. |
| EventCard.SummaryTextDeterminesCount | lifit/components/eventCard/index.tsx:157-158 | For the same participants, the summary text determines the participant count. |
| Alerts.OrElse | lifit/app/criarEvento.tsx:142 | An alert text is the server's message when it is present and non-empty, and the fallback otherwise. |
| CreateEvent.Validate | lifit/app/criarEvento.tsx:62-78 | Checks run in order: blank title, then blank location, then an end not after the start. Each failure gives its own message, and the form passes exactly when none applies. |
| CreateEvent.TrimOrNull | lifit/app/criarEvento.tsx:132 | The description is null exactly when it is all whitespace, and otherwise is its trimmed, non-empty text. |
| CreateEvent.Publish | lifit/app/criarEvento.tsx:62-150 | A failed validation alerts and uploads nothing. The event is posted only with an uploaded URL. The screen navigates home only on 200 or 201. An upload or request failure gives the generic alert. The spinner always ends off. |
| CreateEvent.SentSpanIsOrdered | lifit/app/criarEvento.tsx:53-60 | A posted event's two timestamps carry the form's date, and the end is later than the start as a string. The description is never the empty string. |
| Calendar.FormatDateRoundTrip | lifit/app/criarMeta.tsx:24-29 | Every `Y-MM-DD` text the goal screens send reads back as its date. |
| Calendar.FormatDateInjective | lifit/app/metas.tsx:50-56 | Different dates never serialise to the same `Y-MM-DD` text. |
| Calendar.FormatDateOrder | lifit/app/criarMeta.tsx:24-29 | For non-negative years of equal width, the texts compare as strings exactly as the dates compare. |
| Calendar.CombineDateTimeOrder | lifit/app/criarEvento.tsx:53-60 | Two timestamps on one date compare as strings exactly as their times of day compare. |
| Calendar.CombineDateTimeDatePart | lifit/app/criarEvento.tsx:59 | A timestamp starts with its date's `Y-MM-DD` text followed by `T`. |
| Goals.HandleDateChange | lifit/app/criarMeta.tsx:36-41 | The picker closes. A picked date becomes the deadline, and a dismissal keeps the old one. |
| Goals.DismissKeepsPick | lifit/app/criarMeta.tsx:36-41 | Dismissing the picker after picking a date keeps the picked date. |
| Goals.PickedDeadlineIsSent | lifit/app/criarMeta.tsx:36-65 | With a non-blank name and a deadline not before today, the goal is posted with the picked deadline as `Y-MM-DD`. |
| Goals.CreateGoal | lifit/app/criarMeta.tsx:43-80 | A blank name alerts first, then a deadline before today. Otherwise the trimmed name with today and the deadline as `Y-MM-DD` is posted. Success offers to go back; a failure shows the server's message or the fallback. The spinner ends off. |
| Goals.DeadlineTodayAccepted | lifit/app/criarMeta.tsx:49-57 | Deadlines are compared by calendar day, so a deadline of today is accepted. |
| Goals.SentGoalIsOrdered | lifit/app/criarMeta.tsx:59-65 | A sent goal never ends before it starts, comparing the texts as strings, and its name is non-empty. |
| Goals.Flip | lifit/app/metas.tsx:61 | The tick button always changes the status. |
| Goals.FlipInvolution | lifit/app/metas.tsx:61 | Flipping twice gives back the original status. |
| Goals.SetStatus | lifit/app/metas.tsx:72-76 | Goals with the tapped id take the new status. Every other goal, the order and the length are unchanged. |
| Goals.ToggleStatus | lifit/app/metas.tsx:58-82 | The PUT goes to `/meta/<id>` with the name, the flipped status and the deadline as `Y-MM-DD`. Only a successful PUT changes the list. The row's spinner ends off. |
| Goals.ToggleTwiceRestores | lifit/app/metas.tsx:58-82 | Tapping a goal twice, with both requests succeeding, restores the list. |
| Goals.FetchGoals | lifit/app/metas.tsx:27-37 | A successful fetch replaces the list with the server's, and a failed one keeps it. The spinner ends off. |
| Goals.Refresh | lifit/app/metas.tsx:39-43 | Pull-to-refresh fetches like `buscarMetas` and hides the refresh indicator afterwards. |
| Goals.RefreshIdempotent | lifit/app/metas.tsx:27-43 | Refreshing twice against the same server reply gives the state of one refresh. |
| Goals.RefreshRecoversFromFailedFetch | lifit/app/metas.tsx:27-43 | A failed fetch keeps the old list, and a later successful refresh shows the server's list. |
| Profile.InitialForm | lifit/app/editarPerfil.tsx:19-22 | Each field starts from the profile. It is empty when there is no profile or the field is null. |
| Profile.PickImage | lifit/app/editarPerfil.tsx:24-82 | Cancelling changes nothing. A returned URL becomes the photo with no alert. Every other outcome ends with the generic alert and keeps the old photo. The upload spinner ends off. |
| Profile.SaveErrorText | lifit/app/editarPerfil.tsx:121-127 | A 409 reports the username as taken, whatever the message. Otherwise the server's message is shown, then the generic text. |
| Profile.Save | lifit/app/editarPerfil.tsx:84-131 | A blank name is reported before a blank username, and neither sends. Otherwise the normalised profile is sent. The context takes the server's profile only on success. The spinner ends off. |
| Profile.SentProfileIsNormalised | lifit/app/editarPerfil.tsx:98-105 | A sent profile has non-empty names with no surrounding whitespace, a trimmed biography, a null or non-empty photo and an empty password. |
| Profile.UpdateIsNormalised | lifit/app/editarPerfil.tsx:98-105 | The body built from a form with non-blank names is in the normalised shape above. |
| Profile.SaveUnchangedProfile | lifit/app/editarPerfil.tsx:19-22 | Saving at once resends the context's profile, trimmed, with its email. An empty photo becomes null. |
| Profile.PickedPhotoIsSaved | lifit/app/editarPerfil.tsx:24-105 | A photo URL returned by the upload is the photo the next valid save sends. |
| Profile.FailedPickSavesSame | lifit/app/editarPerfil.tsx:24-105 | A cancelled pick or a failed upload leaves what the next save sends unchanged. |
| PostForm.SelectedImage | lifit/app/postForm.tsx:15-17 | A repeated parameter yields its first value. An absent or empty one yields none. |
| PostForm.PreviewUri | lifit/app/postForm.tsx:15-17 | The preview is present exactly when the selected value is a non-empty text. |
| PostForm.StripQuotesUnquoted | lifit/app/postForm.tsx:33 | Text quoted on neither end is only trimmed. |
| PostForm.StripQuotesQuoted | lifit/app/postForm.tsx:33 | Text quoted on both ends loses exactly those two quotes. |
| PostForm.StripQuotesNotIdempotent | lifit/app/postForm.tsx:33 | Only one quote goes at each end, so stripping again can remove more. |
| PostForm.LeadingSlashes | lifit/app/postForm.tsx:35 | This is the length of the run of `/` at the start of a text. |
| PostForm.FixFileSlashes | lifit/app/postForm.tsx:34-36 | `file:` followed by one or two slashes has its slash run replaced by three. Any other text is unchanged. |
| PostForm.FixFileSlashesIdempotent | lifit/app/postForm.tsx:34-36 | Fixing the slashes twice is the same as fixing them once. |
| PostForm.ResolveUri | lifit/app/postForm.tsx:24-57 | No preview resolves to nothing. Otherwise the URI is stripped and fixed. A content URI becomes its cache copy `<cacheDirectory>upload_<now>.jpg` when the copy succeeds, with a null directory written `null`. |
| PostForm.QuotedEmptyPreview | lifit/app/postForm.tsx:33 | A preview that is just a pair of quotes resolves to the empty text, which the form treats as no image. |
| PostForm.ResolveShortFileUri | lifit/app/postForm.tsx:34-36 | A bare `file:/` or `file://` preview resolves to its fixed form, which differs from it. |
| PostForm.CheckPost | lifit/app/postForm.tsx:103-111 | A missing user is reported first, then an empty title or description. Whitespace alone passes. |
| PostForm.Send | lifit/app/postForm.tsx:123-148 | The body carries the title, the media, the author copied from the user and the description. The screen navigates home exactly on 200 or 201. The alert is the success text on 200 or 201, the not-posted text on any other status, and the error text on a rejection. |
| PostForm.HandlePostAsWritten | lifit/app/postForm.tsx:101-149 | A failed check alerts and sends nothing. This is the handler as written; see Findings. |
| PostForm.ImagePostNeverSentAsWritten | lifit/app/postForm.tsx:114-120 | As written, a post with an image is never sent. |
| PostForm.UploadsRawPreviewAsWritten | lifit/app/postForm.tsx:77-85 | As written, the file uploaded is the raw preview, not the resolved URI. |
| PostForm.HandlePost | lifit/app/postForm.tsx:101-149 | Corrected handler: a valid post is sent exactly when it has no image or the upload returned a URL. The resolved URI is what gets uploaded. The media is the URL, or the default without an image. |
| PostForm.ImagePostSent | lifit/app/postForm.tsx:114-121 | Corrected: a valid post with an uploaded image is sent with that URL, and it navigates home on 200 or 201. |
| PostForm.NoImageVersionsAgree | lifit/app/postForm.tsx:113-148 | Without an image, the handler as written and the corrected one behave the same. |
| CreatePost.FirstMatch | lifit/app/createPost.tsx:88 | This is the first of the five extensions the name ends with, ignoring case, if any. |
| CreatePost.MatchUnique | lifit/app/createPost.tsx:88 | A name ends with at most one of the accepted extensions. |
| CreatePost.KeptExtension | lifit/app/createPost.tsx:88-89 | The name's own extension is kept exactly as written when it is one of the five, and `.jpg` is used otherwise. |
| CreatePost.ExtensionKeepsCase | lifit/app/createPost.tsx:88-89 | An accepted extension in any letter case, such as `.PNG`, is kept verbatim. |
| CreatePost.TrailingTextIgnored | lifit/app/createPost.tsx:88 | Only the end of the name counts, so `x.png.txt` is kept as `.jpg`. |
| CreatePost.PickedImage | lifit/app/createPost.tsx:86-97 | A successful copy is named `<cacheDirectory>post_<now><ext>`, with a null directory written `null` and `<ext>` the kept extension. A failed copy keeps the picker's URI. |
| CreatePost.TakenImage | lifit/app/createPost.tsx:103-112 | A camera photo's copy is named `<cacheDirectory>post_<now>.jpg`. A failed copy keeps the camera's URI. |
| CreatePost.CopyKeepsExtension | lifit/app/createPost.tsx:86-97 | A kept copy has the same kept extension as its source, so picking it again keeps it. |
| CreatePost.TakenImageIsJpg | lifit/app/createPost.tsx:100-113 | A kept camera photo keeps `.jpg` when it is picked again. |
| CreatePost.PickImage | lifit/app/createPost.tsx:77-98 | A cancelled picker keeps the current image. A rejected picker keeps it too and rejects the handler. Otherwise the picked image's copy, or its own URI, replaces it. |
| CreatePost.TakePicture | lifit/app/createPost.tsx:100-113 | Nothing happens while the camera is not attached. A rejected capture keeps the image and rejects the handler. Otherwise the photo's copy, or its own URI, replaces the image. |
| CreatePost.TakenPictureIsJpg | lifit/app/createPost.tsx:100-113 | A photo taken and kept is a `.jpg` image when it is picked again. |
| CreatePost.ToggleFacing | lifit/app/createPost.tsx:115-117 | The facing always changes. |
| CreatePost.ToggleFacingInvolution | lifit/app/createPost.tsx:115-117 | Toggling twice restores the facing. |
| CreatePost.CheckPermission | lifit/app/createPost.tsx:22-75 | Nothing happens while the permission loads. A request is made only when permission is not granted. The run makes the screen ready exactly when permission is or becomes granted; nothing ever makes it not ready. A refusal shows the settings dialog exactly when it cannot be asked again. |
| CreatePost.RerunAfterGrant | lifit/app/createPost.tsx:13-55 | When a request grants the permission, the effect's next run makes the screen ready at once and asks nothing. |
| CreatePost.RefusalStaysBlocked | lifit/app/createPost.tsx:13-75 | After a refusal, a rerun whose response still does not grant the permission does not make the screen ready. |
| Swipe.IndexOf | lifit/components/SwipeableScreen/index.tsx:12-16 | Every screen has a position among the four. |
| Swipe.ScreenAt | lifit/components/SwipeableScreen/index.tsx:12 | `SCREEN_ORDER[i]` is the screen at position `i`. |
| Swipe.Navigate | lifit/components/SwipeableScreen/index.tsx:18-35 | A left swipe moves one place forward and a right swipe one place back, wrapping around the four. |
| Swipe.NavigateBack | lifit/components/SwipeableScreen/index.tsx:18-35 | A swipe and then the opposite swipe returns to the start. |
| Swipe.NavigateTimesIndex | lifit/components/SwipeableScreen/index.tsx:18-35 | k swipes the same way move k places around the ring. |
| Swipe.FourSwipesReturn | lifit/components/SwipeableScreen/index.tsx:18-35 | Four swipes the same way return to the start. |
| Swipe.NavigateWraps | lifit/components/SwipeableScreen/index.tsx:24-27 | Swiping left from the profile reaches home, and swiping right from home reaches the profile. |
| Swipe.SwipeDirection | lifit/components/SwipeableScreen/index.tsx:40-52 | A pan moves only when its horizontal travel exceeds 80. Positive travel swipes right and negative travel swipes left. |
| Swipe.OnPanEnd | lifit/components/SwipeableScreen/index.tsx:40-52 | A finished pan leads to the neighbouring screen in its direction, or nowhere within the threshold. |
| Swipe.PanThereAndBack | lifit/components/SwipeableScreen/index.tsx:40-52 | A pan past the threshold moves, and the opposite pan comes back to the starting screen. |
| Notifications.KindsDistinguishable | lifit/app/notificacoes.tsx:15-33 | Different kinds never share an icon or a default text. |
| Notifications.RowFor | lifit/app/notificacoes.tsx:24-33 | A row has its kind's icon and the `@` handle. The text is the given one whenever it is not null, even when empty, and the kind's default otherwise. |
| Text.TrimEmptyIffAllWhitespace | lifit/components/CommentsBottomSheet.tsx:149 | `trim()` gives the empty text exactly when the text is all whitespace. |
| Text.TrimIdempotent | lifit/app/editarPerfil.tsx:99-101 | Trimming a trimmed text changes nothing. |
| Text.NullableText | lifit/app/postForm.tsx:39 | A text that may be null is written as itself, and null as `null`. |

## Left out

- I/O is represented by parameters: storage reads, writes and removals (each may fail), HTTP requests, Cloudinary uploads, image pickers, the camera, file copies and the clock. Each handler takes the outcome of each such step as an input.
- Concurrency is not modelled. Each handler runs to completion, and nothing else interleaves while it awaits. React's batched state updates are read as taking effect together.
- Rendering, styles and navigation calls are not modelled, and neither are alert buttons beyond noting which ones lead back.
- The `setApiToken` helper is not defined in `lifit/config/axiosConfig.ts`, and its module is not part of this model. The token it receives is kept as an opaque in-memory field.
- `Date` parsing of ISO texts and time zones are not modelled. Dates appear as their local calendar fields, and elapsed times as whole milliseconds. Invalid (NaN) dates are not modelled.
- Locale formatting (`toLocaleDateString`, `toLocaleTimeString`) is not modelled; no property depends on it.
- Goals.CreateGoal: the handler reads the clock twice, for the deadline check and for `dataInicio`. The model reads it once (`today`), so a run straddling midnight is not modelled.
- Counts.FormatNumber: counts are whole numbers. Ties of `toFixed(1)` (a count ending in 50) are rounded half up. Binary floating-point rounding, and counts too large to print in fixed notation, are not modelled.
- PostForm.PreviewUri: `decodeURIComponent` of the route parameter is not modelled. The parameter is taken as already decoded.
- PostForm.ResolveUri: the effect's outer `catch`, which falls back to the raw preview, is not modelled, because string trimming and replacing do not throw. The `isMounted` guard is not modelled either.
- The Cloudinary client's configuration and the upload preset are not modelled, and neither are the gesture recogniser's settings.

## Findings

| source | as written | input that shows it | evidently intended | confidence | as-written member | corrected member |
|---|---|---|---|---|---|---|
| lifit/app/postForm.tsx:77-99 | `uploadImage` returns nothing after a successful upload, so `handlePost` takes the `else return` branch at lines 118-120 | A signed-in user with a title, a description and any non-empty `resolvedUri` | Return the upload's `secure_url` so the post is sent with the image | not executed | PostForm.ImagePostNeverSentAsWritten | PostForm.ImagePostSent |
| lifit/app/postForm.tsx:79 | The upload sends `previewUri` rather than its `uri` argument, the normalised `resolvedUri` | A preview `file:/data/x.jpg`, which resolves to `file:///data/x.jpg`, but the raw text is uploaded | Upload the resolved URI passed in | not executed | PostForm.UploadsRawPreviewAsWritten | PostForm.HandlePost |

=== FILE: alerts.dfy ===
/** What the screens show the user: native alerts, and the `message || fallback` choice of their texts. */
module Alerts {
  import opened Wrappers

  /** `Alert.alert(title, message)` */
  datatype Alert = Alert(title: string, message: string)

  /** JavaScript truthiness of an optional text: absent and empty are both falsy. */
  predicate Present(s: Option<string>) {
    s.Some? && s.value != ""
  }

  /** `message || fallback` */
  function OrElse(message: Option<string>, fallback: string): (r: string)
    ensures Present(message) ==> r == message.value
    ensures !Present(message) ==> r == fallback
  {
    if Present(message) then message.value else fallback
  }
}

=== FILE: calendar.dfy ===
/**
 * Calendar fields as a JavaScript `Date` reports them in local time, and the
 * two serialisers the screens build from them: `Y-MM-DD` (the goal screens'
 * `formatarDataAPI`) and `Y-MM-DDTHH:MM:00` (the event screen's `combinarDataHora`).
 * Parsing ISO strings into dates, time zones and locale formatting are not modelled.
 */
module Calendar {
  import opened Wrappers
  import opened Text

  /** `getMonth()`: January is 0. */
  type MonthIndex = m: int | 0 <= m < 12
  /** `getDate()` */
  type DayOfMonth = d: int | 1 <= d <= 31 witness 1
  /** `getHours()` */
  type Hour = h: int | 0 <= h < 24
  /** `getMinutes()` */
  type Minute = m: int | 0 <= m < 60

  datatype LocalDate = LocalDate(year: int, monthIndex: MonthIndex, day: DayOfMonth)

  datatype ClockTime = ClockTime(hours: Hour, minutes: Minute)

  /** Whether local midnight of `a` comes before local midnight of `b`. */
  predicate DateBefore(a: LocalDate, b: LocalDate) {
    || a.year < b.year
    || (a.year == b.year && a.monthIndex < b.monthIndex)
    || (a.year == b.year && a.monthIndex == b.monthIndex && a.day < b.day)
  }

  function MinuteOfDay(t: ClockTime): int {
    t.hours * 60 + t.minutes
  }

  /** `Y-MM-DD` with a 1-based month; the year is printed as `String(year)`, unpadded. */
  function FormatDate(d: LocalDate): string {
    IntToString(d.year) + ("-" + (TwoDigits(d.monthIndex + 1) + ("-" + TwoDigits(d.day))))
  }

  /** `Y-MM-DDTHH:MM:00`: the date part of `d`, the time of day of `t`, seconds always zero. */
  function CombineDateTime(d: LocalDate, t: ClockTime): string {
    FormatDate(d) + ("T" + (TwoDigits(t.hours) + (":" + (TwoDigits(t.minutes) + ":00"))))
  }

  // ---------------------------------------------------------------------
  // Reading the serialised forms back

  /** Reads `Y-MM-DD` back; `None` when the text does not have that shape or a field is out of range. */
  function ParseDate(s: string): Option<LocalDate> {
    if |s| < 7 || s[|s| - 6] != '-' || s[|s| - 3] != '-' then None
    else
      var y, m, d := s[..|s| - 6], s[|s| - 5..|s| - 3], s[|s| - 2..];
      if !IsIntText(y) || !AllDigits(m) || !AllDigits(d) then None
      else
        var month, day := ParseNat(m), ParseNat(d);
        if 1 <= month <= 12 && 1 <= day <= 31 then Some(LocalDate(ParseInt(y), month - 1, day)) else None
  }

  /** Where the fields of a `Y-MM-DD` text sit, whatever the year's width. */
  lemma DateTextSlices(y: string, m: string, d: string)
    requires |m| == 2 && |d| == 2
    ensures var s := y + ("-" + (m + ("-" + d)));
      && |s| == |y| + 6 && s[|s| - 6] == '-' && s[|s| - 3] == '-'
      && s[..|s| - 6] == y && s[|s| - 5..|s| - 3] == m && s[|s| - 2..] == d
  {
    var s := y + ("-" + (m + ("-" + d)));
    assert s[..|s| - 6] == y;
    assert s[|s| - 5..|s| - 3] == m;
  }

  /** Reading a text laid out as `Y-MM-DD` yields its three fields. */
  lemma ParseDateLayout(y: string, m: string, d: string)
    requires IsIntText(y) && |m| == 2 && |d| == 2 && AllDigits(m) && AllDigits(d)
    requires 1 <= ParseNat(m) <= 12 && 1 <= ParseNat(d) <= 31
    ensures ParseDate(y + ("-" + (m + ("-" + d)))) == Some(LocalDate(ParseInt(y), ParseNat(m) - 1, ParseNat(d)))
  {
    DateTextSlices(y, m, d);
  }

  /** Every date the goal screens send reads back as itself. */
  lemma FormatDateRoundTrip(d: LocalDate)
    ensures ParseDate(FormatDate(d)) == Some(d)
  {
    TwoDigitsValue(d.monthIndex + 1);
    TwoDigitsValue(d.day);
    IntToStringIsIntText(d.year);
    ParseIntToString(d.year);
    ParseDateLayout(IntToString(d.year), TwoDigits(d.monthIndex + 1), TwoDigits(d.day));
  }

  /** Different dates never serialise to the same text. */
  lemma FormatDateInjective(a: LocalDate, b: LocalDate)
    requires FormatDate(a) == FormatDate(b)
    ensures a == b
  {
    FormatDateRoundTrip(a);
    FormatDateRoundTrip(b);
  }

  // ---------------------------------------------------------------------
  // String order of the serialised forms

  /** A leading two-digit field decides the order unless it ties. */
  lemma LexLessLeadingField(m: nat, n: nat, c: string, d: string)
    requires m < 100 && n < 100
    ensures LexLess(TwoDigits(m) + c, TwoDigits(n) + d) <==> m < n || (m == n && LexLess(c, d))
  {
    if m == n {
      LexLessCommonPrefix(TwoDigits(m), c, d);
    } else {
      TwoDigitsLength(m);
      TwoDigitsLength(n);
      TwoDigitsDistinct(m, n);
      LexLessFixedWidth(TwoDigits(m), TwoDigits(n), c, d);
      LexLessTwoDigits(m, n);
    }
  }

  lemma LexLessDash(c: string, d: string)
    ensures LexLess("-" + c, "-" + d) <==> LexLess(c, d)
  {
    LexLessCommonPrefix("-", c, d);
  }

  /** The `-MM-DD` tails of two dates compare as month, then day. */
  lemma MonthDayTextOrder(m1: nat, d1: nat, m2: nat, d2: nat)
    requires m1 < 100 && d1 < 100 && m2 < 100 && d2 < 100
    ensures LexLess("-" + (TwoDigits(m1) + ("-" + TwoDigits(d1))), "-" + (TwoDigits(m2) + ("-" + TwoDigits(d2))))
        <==> m1 < m2 || (m1 == m2 && d1 < d2)
  {
    var t1, t2 := "-" + TwoDigits(d1), "-" + TwoDigits(d2);
    LexLessDash(TwoDigits(m1) + t1, TwoDigits(m2) + t2);
    LexLessLeadingField(m1, m2, t1, t2);
    LexLessDash(TwoDigits(d1), TwoDigits(d2));
    LexLessTwoDigits(d1, d2);
  }

  /** Behind equal years, the order of `Y-MM-DD` texts is the order of month, then day. */
  lemma FormatDateOrderSameYear(a: LocalDate, b: LocalDate)
    requires a.year == b.year
    ensures LexLess(FormatDate(a), FormatDate(b)) <==> DateBefore(a, b)
  {
    var ta := "-" + (TwoDigits(a.monthIndex + 1) + ("-" + TwoDigits(a.day)));
    var tb := "-" + (TwoDigits(b.monthIndex + 1) + ("-" + TwoDigits(b.day)));
    var y := IntToString(a.year);
    assert FormatDate(a) == y + ta && FormatDate(b) == y + tb;
    LexLessCommonPrefix(y, ta, tb);
    MonthDayTextOrder(a.monthIndex + 1, a.day, b.monthIndex + 1, b.day);
  }

  /** A non-negative year is printed as its digits alone. */
  lemma NonNegativeYearText(y: int)
    requires 0 <= y
    ensures IntToString(y) == NatToString(y)
  {
  }

  /** Different years of the same printed width decide the order of `Y-MM-DD` texts. */
  lemma FormatDateOrderOtherYear(a: LocalDate, b: LocalDate)
    requires 0 <= a.year && 0 <= b.year && a.year != b.year
    requires |NatToString(a.year)| == |NatToString(b.year)|
    ensures LexLess(FormatDate(a), FormatDate(b)) <==> a.year < b.year
  {
    var ya, yb := NatToString(a.year), NatToString(b.year);
    var ta := "-" + (TwoDigits(a.monthIndex + 1) + ("-" + TwoDigits(a.day)));
    var tb := "-" + (TwoDigits(b.monthIndex + 1) + ("-" + TwoDigits(b.day)));
    NonNegativeYearText(a.year);
    NonNegativeYearText(b.year);
    assert FormatDate(a) == ya + ta && FormatDate(b) == yb + tb;
    NatToStringInjective(a.year, b.year);
    LexLessFixedWidth(ya, yb, ta, tb);
    NatToStringOrder(a.year, b.year);
  }

  /**
   * For non-negative years printed with the same number of digits (all of
   * 1000 to 9999, say), comparing the `Y-MM-DD` texts as strings agrees with
   * comparing the dates.
   */
  lemma FormatDateOrder(a: LocalDate, b: LocalDate)
    requires 0 <= a.year && 0 <= b.year
    requires |NatToString(a.year)| == |NatToString(b.year)|
    ensures LexLess(FormatDate(a), FormatDate(b)) <==> DateBefore(a, b)
  {
    if a.year == b.year {
      FormatDateOrderSameYear(a, b);
    } else {
      FormatDateOrderOtherYear(a, b);
    }
  }

  /**
   * Two timestamps built on the same date compare as strings exactly as
   * their times of day compare.
   */
  lemma CombineDateTimeOrder(d: LocalDate, s: ClockTime, e: ClockTime)
    ensures LexLess(CombineDateTime(d, s), CombineDateTime(d, e)) <==> MinuteOfDay(s) < MinuteOfDay(e)
  {
    var hs, ms, he, me := TwoDigits(s.hours), TwoDigits(s.minutes), TwoDigits(e.hours), TwoDigits(e.minutes);
    var rs, re := ":" + (ms + ":00"), ":" + (me + ":00");
    LexLessCommonPrefix(FormatDate(d), "T" + (hs + rs), "T" + (he + re));
    LexLessCommonPrefix("T", hs + rs, he + re);
    LexLessLeadingField(s.hours, e.hours, rs, re);
    LexLessCommonPrefix(":", ms + ":00", me + ":00");
    LexLessLeadingField(s.minutes, e.minutes, ":00", ":00");
    LexLessIrreflexive(":00");
  }

  /** A combined timestamp starts with its date's `Y-MM-DD` text, followed by a `T`. */
  lemma CombineDateTimeDatePart(d: LocalDate, t: ClockTime)
    ensures StartsWith(CombineDateTime(d, t), FormatDate(d))
    ensures CombineDateTime(d, t)[|FormatDate(d)|] == 'T'
  {
  }
}

=== FILE: comments.dfy ===
/**
 * The comments bottom sheet: it fetches a post's or an event's whole comment
 * list, enriches each comment with its author's profile, and shows it ten at
 * a time, appending a page per "more comments" tap. An in-flight guard
 * blocks overlapping loads and closing the sheet resets the list. The sheet
 * also labels each comment's age and refuses to send blank comments.
 */
module Comments {
  import opened Wrappers
  import opened Text

  const ItemsPerPage := 10

  /** A comment as the list endpoint returns it. */
  datatype RawComment = RawComment(
    id: int,
    conteudo: string,
    autorId: int,
    autorNomeUsuario: string,
    dataCriacao: string)

  /** An author's profile as `GET /usuario/{id}` returns it; a null `nome` is written "". */
  datatype AuthorProfile = AuthorProfile(id: int, nome: string, nomeUsuario: string, fotoPerfil: Option<string>)

  datatype Author = Author(id: int, nome: string, nomeUsuario: string, fotoPerfil: Option<string>)

  datatype Comment = Comment(id: int, conteudo: string, autor: Author, dataCriacao: string)

  /** One fetched comment with the outcome of its author lookup (`None` when the lookup failed). */
  datatype Fetched = Fetched(raw: RawComment, lookup: Option<AuthorProfile>)

  /**
   * A comment with its author filled in: from the profile when the lookup
   * succeeded (an empty name falls back to the username), from the comment's
   * own author fields and no photo when it failed.
   */
  function Enrich(f: Fetched): (c: Comment)
    ensures c.id == f.raw.id && c.conteudo == f.raw.conteudo && c.dataCriacao == f.raw.dataCriacao
    ensures f.lookup.None? ==>
      c.autor == Author(f.raw.autorId, f.raw.autorNomeUsuario, f.raw.autorNomeUsuario, None)
    ensures f.lookup.Some? ==>
      && c.autor.id == f.lookup.value.id
      && c.autor.nomeUsuario == f.lookup.value.nomeUsuario
      && c.autor.fotoPerfil == f.lookup.value.fotoPerfil
      && c.autor.nome == (if f.lookup.value.nome != "" then f.lookup.value.nome else f.lookup.value.nomeUsuario)
  {
    var author := match f.lookup
      case None => Author(f.raw.autorId, f.raw.autorNomeUsuario, f.raw.autorNomeUsuario, None)
      case Some(p) => Author(p.id, if p.nome != "" then p.nome else p.nomeUsuario, p.nomeUsuario, p.fotoPerfil);
    Comment(f.raw.id, f.raw.conteudo, author, f.raw.dataCriacao)
  }

  /** The whole list, enriched element by element: same length, same order. */
  function EnrichAll(items: seq<Fetched>): (cs: seq<Comment>)
    ensures |cs| == |items|
    ensures forall i :: 0 <= i < |items| ==> cs[i] == Enrich(items[i])
  {
    seq(|items|, i requires 0 <= i < |items| => Enrich(items[i]))
  }

  function Min(a: int, b: int): int {
    if a <= b then a else b
  }

  /** `all.slice(start, end)` for `0 <= start <= end`: bounds past the end are clipped. */
  function Slice<T>(all: seq<T>, start: nat, end: nat): (r: seq<T>)
    requires start <= end
    ensures |r| == Min(end, |all|) - Min(start, |all|)
    ensures forall i :: 0 <= i < |r| ==> r[i] == all[start + i]
  {
    all[Min(start, |all|)..Min(end, |all|)]
  }

  // ---------------------------------------------------------------------
  // The pager

  datatype Pager = Pager(shown: seq<Comment>, loading: bool, loadingMore: bool, page: nat, hasMore: bool)

  const Initial := Pager([], false, false, 0, true)

  predicate InFlight(s: Pager) {
    s.loading || s.loadingMore
  }

  /** A load that has started: whether it resets, and the page the handler captured when called. */
  datatype LoadRequest = LoadRequest(reset: bool, page: nat)

  /**
   * The synchronous start of `carregarComentarios(reset)`: nothing when a
   * load is in flight; otherwise the matching flag is raised (and a reset
   * returns to page 0 at once) and the request is issued.
   */
  function Begin(s: Pager, reset: bool): (r: (Pager, Option<LoadRequest>))
    ensures InFlight(s) ==> r == (s, None)
    ensures !InFlight(s) ==> r.1 == Some(LoadRequest(reset, s.page)) && InFlight(r.0)
    ensures !InFlight(s) ==> r.0.shown == s.shown && r.0.hasMore == s.hasMore
    ensures !InFlight(s) && reset ==> r.0.loading && r.0.page == 0
    ensures !InFlight(s) && !reset ==> r.0.loadingMore && r.0.page == s.page
  {
    if InFlight(s) then (s, None)
    else if reset then (s.(loading := true, page := 0), Some(LoadRequest(true, s.page)))
    else (s.(loadingMore := true), Some(LoadRequest(false, s.page)))
  }

  /**
   * The completion of a started load, given the fetched list (`None` when the
   * list request failed): a reset shows the first page, a load-more appends
   * the page after the captured one; `hasMore` says whether the list goes on
   * past the slice; both flags drop on every exit.
   */
  function Complete(s: Pager, req: LoadRequest, fetched: Option<seq<Fetched>>): (r: Pager)
    ensures !r.loading && !r.loadingMore
    ensures fetched.None? ==> r == s.(loading := false, loadingMore := false)
    ensures fetched.Some? && req.reset ==>
      var all := EnrichAll(fetched.value);
      r.shown == all[..Min(ItemsPerPage, |all|)] && r.page == 0 && (r.hasMore <==> ItemsPerPage < |all|)
    ensures fetched.Some? && !req.reset ==>
      var all := EnrichAll(fetched.value);
      var start := (req.page + 1) * ItemsPerPage;
      && r.shown == s.shown + all[Min(start, |all|)..Min(start + ItemsPerPage, |all|)]
      && r.page == s.page + 1
      && (r.hasMore <==> start + ItemsPerPage < |all|)
  {
    match fetched
    case None => s.(loading := false, loadingMore := false)
    case Some(items) =>
      var all := EnrichAll(items);
      var start := if req.reset then 0 else (req.page + 1) * ItemsPerPage;
      var end := start + ItemsPerPage;
      var page := Slice(all, start, end);
      var shown := if req.reset then page else s.shown + page;
      var next := if req.reset then 0 else s.page + 1;
      Pager(shown, false, false, next, end < |all|)
  }

  /** One whole `carregarComentarios(reset)` call, with nothing else happening while it is in flight. */
  function Load(s: Pager, reset: bool, fetched: Option<seq<Fetched>>): (r: Pager)
    ensures InFlight(s) ==> r == s
    ensures !InFlight(s) ==> !InFlight(r)
    ensures !InFlight(s) && fetched.None? ==>
      r.shown == s.shown && r.hasMore == s.hasMore && r.page == (if reset then 0 else s.page)
  {
    match Begin(s, reset)
    case (_, None) => s
    case (started, Some(req)) => Complete(started, req, fetched)
  }

  /** Closing the sheet: empty list, page 0, more to load; the loading flags are left as they are. */
  function Close(s: Pager): (r: Pager)
    ensures r.shown == [] && r.page == 0 && r.hasMore
    ensures r.loading == s.loading && r.loadingMore == s.loadingMore
  {
    s.(shown := [], page := 0, hasMore := true)
  }

  /** The sheet's visibility effect: opening starts a reset load, closing resets. */
  function OnVisibility(s: Pager, visible: bool, fetched: Option<seq<Fetched>>): (r: Pager)
    ensures !visible ==> r.shown == [] && r.page == 0 && r.hasMore
    ensures visible && !InFlight(s) ==> !InFlight(r)
    ensures visible && !InFlight(s) && fetched.Some? ==> ShowsPrefix(r, EnrichAll(fetched.value)) && r.page == 0
  {
    if visible then Load(s, true, fetched) else Close(s)
  }

  // ---------------------------------------------------------------------
  // What the pager shows of an unchanged server list

  /** The pager shows the first `page + 1` pages of `all`, and offers more exactly when some are left. */
  predicate ShowsPrefix(s: Pager, all: seq<Comment>) {
    var n := Min(ItemsPerPage * (s.page + 1), |all|);
    s.shown == all[..n] && (s.hasMore <==> n < |all|)
  }

  /** When the pager shows a prefix, the "more" button appears exactly when comments remain unshown. */
  lemma HasMoreIffUnshown(s: Pager, all: seq<Comment>)
    requires ShowsPrefix(s, all)
    ensures s.hasMore <==> |s.shown| < |all|
  {
  }

  lemma ResetShowsFirstPage(s: Pager, items: seq<Fetched>)
    requires !InFlight(s)
    ensures ShowsPrefix(Load(s, true, Some(items)), EnrichAll(items))
  {
  }

  lemma PrefixThenSlice<T>(all: seq<T>, a: nat, b: nat)
    requires a <= b
    ensures all[..Min(a, |all|)] + all[Min(a, |all|)..Min(b, |all|)] == all[..Min(b, |all|)]
  {
  }

  /** Appending the slice of the next page to a shown prefix shows the prefix one page longer. */
  lemma NextPageExtendsPrefix(s: Pager, r: Pager, all: seq<Comment>)
    requires ShowsPrefix(s, all) && r.page == s.page + 1
    requires r.shown == s.shown + all[Min(ItemsPerPage * (s.page + 1), |all|)..Min(ItemsPerPage * (s.page + 1) + ItemsPerPage, |all|)]
    requires r.hasMore <==> ItemsPerPage * (s.page + 1) + ItemsPerPage < |all|
    ensures ShowsPrefix(r, all)
  {
    var start := ItemsPerPage * (s.page + 1);
    assert ItemsPerPage * (r.page + 1) == start + ItemsPerPage;
    PrefixThenSlice(all, start, start + ItemsPerPage);
  }

  /** A load-more over an unchanged list extends the shown prefix by one page. */
  lemma LoadMoreExtendsPrefix(s: Pager, items: seq<Fetched>)
    requires !InFlight(s) && ShowsPrefix(s, EnrichAll(items))
    ensures ShowsPrefix(Load(s, false, Some(items)), EnrichAll(items))
    ensures Load(s, false, Some(items)).page == s.page + 1
  {
    var all := EnrichAll(items);
    var r := Complete(s.(loadingMore := true), LoadRequest(false, s.page), Some(items));
    assert Load(s, false, Some(items)) == r;
    var start := (s.page + 1) * ItemsPerPage;
    assert r.shown == s.shown + all[Min(start, |all|)..Min(start + ItemsPerPage, |all|)];
    assert r.hasMore <==> start + ItemsPerPage < |all|;
    assert start == ItemsPerPage * (s.page + 1);
    NextPageExtendsPrefix(s, r, all);
  }

  /** `k` load-mores in a row, the server list unchanged. */
  function LoadMores(s: Pager, items: seq<Fetched>, k: nat): Pager
    decreases k
  {
    if k == 0 then s else LoadMores(Load(s, false, Some(items)), items, k - 1)
  }

  /** Opening the sheet and tapping "more" `k` times shows the first `k + 1` pages. */
  lemma {:induction false} OpenThenLoadMores(s: Pager, items: seq<Fetched>, k: nat)
    requires !InFlight(s)
    ensures var r := LoadMores(Load(s, true, Some(items)), items, k);
      r.page == k && ShowsPrefix(r, EnrichAll(items)) && !InFlight(r)
  {
    ResetShowsFirstPage(s, items);
    LoadMoresFromPrefix(Load(s, true, Some(items)), items, k);
  }

  lemma {:induction false} LoadMoresFromPrefix(s: Pager, items: seq<Fetched>, k: nat)
    requires !InFlight(s) && ShowsPrefix(s, EnrichAll(items))
    ensures var r := LoadMores(s, items, k);
      r.page == s.page + k && ShowsPrefix(r, EnrichAll(items)) && !InFlight(r)
    decreases k
  {
    if k > 0 {
      LoadMoreExtendsPrefix(s, items);
      LoadMoresFromPrefix(Load(s, false, Some(items)), items, k - 1);
    }
  }

  // ---------------------------------------------------------------------
  // Where the list comes from

  /** A JavaScript truthiness test on an optional id: absent and 0 are both falsy. */
  predicate Truthy(id: Option<int>) {
    id.Some? && id.value != 0
  }

  /** The list endpoint: the post's when the post id is truthy, the event's otherwise (even when that id is absent). */
  function Endpoint(postagemId: Option<int>, eventoId: Option<int>): (r: string)
    ensures Truthy(postagemId) ==> r == "/comentario/postagem/" + IntToString(postagemId.value)
    ensures !Truthy(postagemId) ==> r == "/comentario/evento/" + (if eventoId.Some? then IntToString(eventoId.value) else "undefined")
  {
    if Truthy(postagemId) then "/comentario/postagem/" + IntToString(postagemId.value)
    else "/comentario/evento/" + (match eventoId case Some(e) => IntToString(e) case None => "undefined")
  }

  // ---------------------------------------------------------------------
  // Sending a comment

  datatype CommentBody = CommentBody(conteudo: string, postagemId: Option<int>, eventoId: Option<int>)

  function OrNull(id: Option<int>): Option<int> {
    if Truthy(id) then id else None
  }

  /** The body `enviarComentario` posts: none for a blank text, the trimmed text otherwise. */
  function CommentToSend(text: string, postagemId: Option<int>, eventoId: Option<int>): (r: Option<CommentBody>)
    ensures r.None? <==> AllWhitespace(text)
    ensures r.Some? ==> r.value.conteudo == Trim(text) && r.value.conteudo != []
    ensures r.Some? ==> r.value.postagemId == OrNull(postagemId) && r.value.eventoId == OrNull(eventoId)
  {
    TrimEmptyIffAllWhitespace(text);
    if IsBlank(text) then None else Some(CommentBody(Trim(text), OrNull(postagemId), OrNull(eventoId)))
  }

  /**
   * The composer after a send: its text, whether the list reloads, and
   * whether the optional `onCommentAdded` callback is called (when the
   * parent gave one).
   */
  datatype SendOutcome = SendOutcome(text: string, sent: Option<CommentBody>, reloads: bool, notifiesParent: bool, sending: bool)

  /**
   * `enviarComentario`: a blank text does nothing; otherwise the body is
   * posted, and on success the box is cleared, the list reloads from the
   * start and `onCommentAdded` is called when the parent gave one;
   * `enviando` is false afterwards.
   */
  function SendComment(text: string, postagemId: Option<int>, eventoId: Option<int>, postOk: bool): (r: SendOutcome)
    ensures AllWhitespace(text) ==> r == SendOutcome(text, None, false, false, false)
    ensures !AllWhitespace(text) ==> r.sent.Some? && r.sent.value.conteudo == Trim(text)
    ensures !r.sending
    ensures r.reloads <==> r.sent.Some? && postOk
    ensures r.notifiesParent == r.reloads
    ensures r.text == (if r.reloads then "" else text)
  {
    match CommentToSend(text, postagemId, eventoId)
    case None => SendOutcome(text, None, false, false, false)
    case Some(body) =>
      if postOk then SendOutcome("", Some(body), true, true, false)
      else SendOutcome(text, Some(body), false, false, false)
  }

  /**
   * The sheet after a send: a send that reloads runs `carregarComentarios(true)`
   * against the list fetched next; any other send leaves the sheet as it was.
   */
  function AfterSend(s: Pager, out: SendOutcome, fetched: Option<seq<Fetched>>): (r: Pager)
    ensures !out.reloads ==> r == s
    ensures out.reloads && !InFlight(s) && fetched.Some? ==> r.page == 0 && ShowsPrefix(r, EnrichAll(fetched.value))
  {
    if out.reloads then
      if !InFlight(s) && fetched.Some? then
        ResetShowsFirstPage(s, fetched.value);
        Load(s, true, fetched)
      else Load(s, true, fetched)
    else s
  }

  /**
   * A successful send reloads the sheet from the start: the list the server
   * returns afterwards is shown from its first page.
   */
  lemma SentCommentShowsFirstPage(text: string, postagemId: Option<int>, eventoId: Option<int>, s: Pager, items: seq<Fetched>)
    requires !AllWhitespace(text) && !InFlight(s)
    ensures var r := AfterSend(s, SendComment(text, postagemId, eventoId, true), Some(items));
      r.page == 0 && ShowsPrefix(r, EnrichAll(items))
  {
  }

  /** A failed or blank send leaves the sheet's list, page and flags as they were. */
  lemma FailedSendKeepsSheet(text: string, postagemId: Option<int>, eventoId: Option<int>, s: Pager, fetched: Option<seq<Fetched>>)
    ensures AfterSend(s, SendComment(text, postagemId, eventoId, false), fetched) == s
    ensures AllWhitespace(text) ==> AfterSend(s, SendComment(text, postagemId, eventoId, true), fetched) == s
  {
  }

  /** A failed send keeps the text, so sending it again succeeds with the same body. */
  lemma FailedSendCanBeRetried(text: string, postagemId: Option<int>, eventoId: Option<int>)
    ensures var failed := SendComment(text, postagemId, eventoId, false);
      failed.text == text && SendComment(failed.text, postagemId, eventoId, true).sent == failed.sent
  {
  }

  // ---------------------------------------------------------------------
  // Comment age

  const MsPerMinute := 60000
  const MsPerHour := 3600000
  const MsPerDay := 86400000

  datatype Age = Minutes(n: int) | Hours(n: int) | Days(n: int)

  /**
   * `formatarTempo` on the milliseconds elapsed since the comment: whole
   * minutes below an hour (negative for a clock ahead of the device), whole
   * hours below a day, whole days beyond; each count is rounded down.
   */
  function AgeOf(elapsedMs: int): (r: Age)
    ensures r.Minutes? <==> elapsedMs < MsPerHour
    ensures r.Hours? <==> MsPerHour <= elapsedMs < MsPerDay
    ensures r.Minutes? ==> r.n * MsPerMinute <= elapsedMs < (r.n + 1) * MsPerMinute && r.n < 60
    ensures r.Hours? ==> r.n * MsPerHour <= elapsedMs < (r.n + 1) * MsPerHour && 1 <= r.n < 24
    ensures r.Days? ==> r.n * MsPerDay <= elapsedMs < (r.n + 1) * MsPerDay && 1 <= r.n
  {
    var minutes, hours, days := elapsedMs / MsPerMinute, elapsedMs / MsPerHour, elapsedMs / MsPerDay;
    if minutes < 60 then Minutes(minutes)
    else if hours < 24 then Hours(hours)
    else Days(days)
  }

  function AgeText(a: Age): string {
    match a
    case Minutes(n) => IntToString(n) + "min"
    case Hours(n) => IntToString(n) + "h"
    case Days(n) => IntToString(n) + "d"
  }

  function FormatAge(elapsedMs: int): string {
    AgeText(AgeOf(elapsedMs))
  }

  /** Reads an age label back. */
  function ParseAge(s: string): Option<Age> {
    if EndsWith(s, "min") && |s| > 3 && IsIntText(s[..|s| - 3]) then Some(Minutes(ParseInt(s[..|s| - 3])))
    else if EndsWith(s, "h") && |s| > 1 && IsIntText(s[..|s| - 1]) then Some(Hours(ParseInt(s[..|s| - 1])))
    else if EndsWith(s, "d") && |s| > 1 && IsIntText(s[..|s| - 1]) then Some(Days(ParseInt(s[..|s| - 1])))
    else None
  }

  /** Every age label reads back as the age it shows, so different ages never share a label. */
  lemma AgeTextRoundTrip(a: Age)
    ensures ParseAge(AgeText(a)) == Some(a)
  {
    var t := IntToString(a.n);
    IntToStringIsIntText(a.n);
    ParseIntToString(a.n);
    assert t[|t| - 1] != 'n' && t[|t| - 1] != 'h';
    match a
    case Minutes(n) =>
      assert (t + "min")[..|t|] == t;
    case Hours(n) =>
      assert (t + "h")[..|t|] == t;
      assert !EndsWith(t + "h", "min");
    case Days(n) =>
      assert (t + "d")[..|t|] == t;
      assert !EndsWith(t + "d", "min");
  }

  /** The label shown for an elapsed time reads back as the rounded-down age it was computed from. */
  lemma FormatAgeRoundTrip(elapsedMs: int)
    ensures ParseAge(FormatAge(elapsedMs)) == Some(AgeOf(elapsedMs))
  {
    AgeTextRoundTrip(AgeOf(elapsedMs));
  }
}

=== FILE: counts.dfy ===
/**
 * `formatNumber`, shared word for word by the post card and the event card:
 * counts below a thousand are shown as they are, larger ones as thousands
 * with a Brazilian decimal comma and the word `mil` ("12,5 mil", "23 mil").
 */
module Counts {
  import opened Wrappers
  import opened Text

  /** What `formatNumber` returns: the number itself, or a text. */
  datatype Count = Unchanged(n: int) | Abbreviated(text: string)

  const Suffix := " mil"

  /**
   * `(n / 1000).toFixed(1)` counted in tenths of a thousand: the nearest
   * tenth, a tie (n ending in 50) rounded up.
   */
  function Tenths(n: nat): (t: nat)
    ensures n - 50 < t * 100 <= n + 50
  {
    (n + 50) / 100
  }

  /** The text in front of ` mil`: whole thousands, or thousands and one decimal after a comma. */
  function Thousands(n: nat): string
    requires n >= 1000
  {
    if n % 1000 == 0 then NatToString(n / 1000)
    else
      var t := Tenths(n);
      NatToString(t / 10) + ("," + [DigitChar(t % 10)])
  }

  /** `formatNumber(n)` for an integer count. */
  function FormatNumber(n: int): (r: Count)
    ensures r.Unchanged? <==> n < 1000
    ensures r.Unchanged? ==> r.n == n
    ensures r.Abbreviated? ==> EndsWith(r.text, Suffix) && |r.text| > |Suffix|
  {
    if n < 1000 then Unchanged(n) else Abbreviated(Thousands(n) + Suffix)
  }

  // ---------------------------------------------------------------------
  // Reading an abbreviated count back

  /** The tenths of a thousand an abbreviated text stands for: `23 mil` is 230, `12,5 mil` is 125. */
  function ReadAbbreviated(s: string): Option<nat> {
    if !EndsWith(s, Suffix) then None
    else
      var body := s[..|s| - |Suffix|];
      if |body| >= 3 && body[|body| - 2] == ',' && AllDigits(body[..|body| - 2]) && IsDigit(body[|body| - 1]) then
        Some(ParseNat(body[..|body| - 2]) * 10 + DigitValue(body[|body| - 1]))
      else if |body| > 0 && AllDigits(body) then Some(ParseNat(body) * 10)
      else None
  }

  lemma StripSuffix(body: string)
    ensures EndsWith(body + Suffix, Suffix) && (body + Suffix)[..|body|] == body
  {
  }

  lemma ReadWholeThousands(k: nat)
    requires k >= 1
    ensures ReadAbbreviated(NatToString(k) + Suffix) == Some(k * 10)
  {
    var body := NatToString(k);
    StripSuffix(body);
    ParseNatToString(k);
  }

  lemma ReadDecimalBody(i: string, c: char)
    requires |i| >= 1 && AllDigits(i) && IsDigit(c)
    ensures ReadAbbreviated((i + ("," + [c])) + Suffix) == Some(ParseNat(i) * 10 + DigitValue(c))
  {
    var body := i + ("," + [c]);
    StripSuffix(body);
    assert body[..|body| - 2] == i;
  }

  lemma ReadTenths(q: nat, d: nat)
    requires q >= 1 && d < 10
    ensures ReadAbbreviated((NatToString(q) + ("," + [DigitChar(d)])) + Suffix) == Some(q * 10 + d)
  {
    ReadDecimalBody(NatToString(q), DigitChar(d));
    ParseNatToString(q);
  }

  lemma TenthsOfWholeThousands(k: nat)
    ensures Tenths(k * 1000) == k * 10
  {
    assert k * 1000 + 50 == (k * 10) * 100 + 50;
  }

  /** Every abbreviated count reads back as its value rounded to tenths of a thousand. */
  lemma ReadFormatNumber(n: int)
    requires n >= 1000
    ensures ReadAbbreviated(FormatNumber(n).text) == Some(Tenths(n))
  {
    if n % 1000 == 0 {
      var k := n / 1000;
      assert n == k * 1000;
      assert FormatNumber(n).text == NatToString(k) + Suffix;
      ReadWholeThousands(k);
      TenthsOfWholeThousands(k);
    } else {
      var t := Tenths(n);
      var q, d := t / 10, t % 10;
      assert FormatNumber(n).text == (NatToString(q) + ("," + [DigitChar(d)])) + Suffix;
      ReadTenths(q, d);
      assert q * 10 + d == t;
    }
  }

  /**
   * Away from ties, the decimal shown is the nearest one: every other tenth
   * of a thousand lies further from `n`.
   */
  lemma TenthsNearest(n: nat, u: nat)
    requires n % 100 != 50 && u != Tenths(n)
    ensures Abs(Tenths(n) * 100 - n) < 50 < Abs(u * 100 - n)
  {
  }

  function Abs(x: int): nat {
    if x < 0 then -x else x
  }

  /** Whole thousands are shown without a decimal, anything else with exactly one. */
  lemma ThousandsShape(n: nat)
    requires n >= 1000
    ensures n % 1000 == 0 <==> AllDigits(Thousands(n))
    ensures n % 1000 != 0 ==> var b := Thousands(n); b[|b| - 2] == ',' && IsDigit(b[|b| - 1])
  {
    if n % 1000 != 0 {
      var t := Tenths(n);
      var b := Thousands(n);
      assert b[|b| - 2] == ',';
      assert !IsDigit(b[|b| - 2]);
    }
  }
}

=== FILE: createevent.dfy ===
/**
 * The create-event screen: `handlePublicar` validates the form, uploads the
 * picked image, combines the chosen day with the start and end times and
 * posts the event. The upload callback and the API reply are parameters.
 */
module CreateEvent {
  import opened Wrappers
  import opened Text
  import opened Calendar
  import opened Alerts

  datatype Form = Form(
    titulo: string,
    descricao: string,
    localizacao: string,
    data: LocalDate,
    horaInicio: ClockTime,
    horaFim: ClockTime)

  const TitleMissing := "Digite um título para o evento"
  const LocationMissing := "Digite o local do evento"
  const EndNotAfterStart := "O horário de término deve ser posterior ao horário de início"

  /** The first validation failure, if any: a blank title, then a blank location, then an end not after the start. */
  function Validate(f: Form): (r: Option<string>)
    ensures IsBlank(f.titulo) ==> r == Some(TitleMissing)
    ensures !IsBlank(f.titulo) && IsBlank(f.localizacao) ==> r == Some(LocationMissing)
    ensures !IsBlank(f.titulo) && !IsBlank(f.localizacao) && MinuteOfDay(f.horaFim) <= MinuteOfDay(f.horaInicio) ==> r == Some(EndNotAfterStart)
    ensures r.None? <==> !IsBlank(f.titulo) && !IsBlank(f.localizacao) && MinuteOfDay(f.horaInicio) < MinuteOfDay(f.horaFim)
    ensures r.Some? ==> r.value in {TitleMissing, LocationMissing, EndNotAfterStart}
  {
    if IsBlank(f.titulo) then Some(TitleMissing)
    else if IsBlank(f.localizacao) then Some(LocationMissing)
    else if MinuteOfDay(f.horaFim) <= MinuteOfDay(f.horaInicio) then Some(EndNotAfterStart)
    else None
  }

  /** The body of `POST /evento`. */
  datatype EventPayload = EventPayload(
    titulo: string,
    midia: string,
    descricao: Option<string>,
    localizacao: string,
    dataInicio: string,
    dataFim: string)

  /** `descricao.trim() || null` */
  function TrimOrNull(s: string): (r: Option<string>)
    ensures r.None? <==> AllWhitespace(s)
    ensures r.Some? ==> r.value == Trim(s) && r.value != ""
  {
    TrimEmptyIffAllWhitespace(s);
    if Trim(s) == "" then None else Some(Trim(s))
  }

  function Payload(f: Form, url: string): EventPayload {
    EventPayload(f.titulo, url, TrimOrNull(f.descricao), f.localizacao,
      CombineDateTime(f.data, f.horaInicio), CombineDateTime(f.data, f.horaFim))
  }

  /** What `POST /evento` resolved with; axios rejects for statuses it treats as errors. */
  datatype ApiResponse = ApiResponse(status: int, message: Option<string>)

  datatype PublishOutcome = PublishOutcome(
    uploadStarted: bool,
    sent: Option<EventPayload>,
    alert: Alert,
    navigatedHome: bool,
    uploading: bool)

  const Created := Alert("Sucesso", "Evento criado com sucesso!")
  const PublishFailed := Alert("Erro", "Não foi possível publicar o evento")

  /**
   * `handlePublicar`. `upload` is the upload callback's outcome: `None` for an
   * error, otherwise the response's `secure_url`, where "" stands for a
   * response without one. `reply` is `None` when the API call rejects.
   */
  function Publish(f: Form, upload: Option<string>, reply: Option<ApiResponse>): (r: PublishOutcome)
    ensures !r.uploading
    ensures Validate(f).Some? ==> r == PublishOutcome(false, None, Alert("Erro", Validate(f).value), false, false)
    ensures r.uploadStarted <==> Validate(f).None?
    ensures r.sent.Some? <==> Validate(f).None? && Present(upload)
    ensures r.sent.Some? ==> r.sent.value == Payload(f, upload.value)
    ensures r.navigatedHome <==> r.sent.Some? && reply.Some? && reply.value.status in {200, 201}
    ensures r.navigatedHome ==> r.alert == Created
    ensures r.uploadStarted && (!Present(upload) || reply.None?) ==> r.alert == PublishFailed
    ensures r.sent.Some? && reply.Some? && reply.value.status !in {200, 201} ==>
      r.alert == Alert("Erro", OrElse(reply.value.message, "Erro ao criar evento"))
  {
    match Validate(f)
    case Some(message) => PublishOutcome(false, None, Alert("Erro", message), false, false)
    case None =>
      if !Present(upload) then PublishOutcome(true, None, PublishFailed, false, false)
      else
        var body := Payload(f, upload.value);
        match reply
        case None => PublishOutcome(true, Some(body), PublishFailed, false, false)
        case Some(response) =>
          if response.status == 200 || response.status == 201 then
            PublishOutcome(true, Some(body), Created, true, false)
          else
            PublishOutcome(true, Some(body), Alert("Erro", OrElse(response.message, "Erro ao criar evento")), false, false)
  }

  /**
   * A payload that passed validation describes a non-empty span of one day:
   * both timestamps carry the form's date, and the end is later than the
   * start both as a time of day and as a string.
   */
  lemma SentSpanIsOrdered(f: Form, upload: Option<string>, reply: Option<ApiResponse>)
    requires Publish(f, upload, reply).sent.Some?
    ensures var p := Publish(f, upload, reply).sent.value;
      && StartsWith(p.dataInicio, FormatDate(f.data)) && StartsWith(p.dataFim, FormatDate(f.data))
      && LexLess(p.dataInicio, p.dataFim)
      && p.descricao != Some("")
  {
    CombineDateTimeDatePart(f.data, f.horaInicio);
    CombineDateTimeDatePart(f.data, f.horaFim);
    CombineDateTimeOrder(f.data, f.horaInicio, f.horaFim);
  }
}

=== FILE: createpost.dfy ===
/**
 * The camera screen that starts a post: the camera-permission check run
 * whenever the permission changes, the front/back toggle, and keeping a
 * copy of the picked or taken image under a name that preserves its
 * extension. Permission results, the clock and the copies are parameters.
 */
module CreatePost {
  import opened Wrappers
  import opened Text
  import opened Alerts

  // ---------------------------------------------------------------------
  // Extension of a picked image

  /** The extensions `/\.(jpg|jpeg|png|heic|webp)$/i` accepts, in lower case. */
  const Extensions := [".jpg", ".jpeg", ".png", ".heic", ".webp"]
  const DefaultExtension := ".jpg"

  /** Whether `s` ends with `e`, ignoring the case of ASCII letters. */
  predicate SuffixMatches(s: string, e: string) {
    |e| <= |s| && EqualsIgnoringCase(s[|s| - |e|..], e)
  }

  /** The first extension from position `k` on that `src` ends with. */
  function FirstMatch(src: string, k: nat): (r: Option<nat>)
    requires k <= |Extensions|
    ensures r.Some? ==> k <= r.value < |Extensions| && SuffixMatches(src, Extensions[r.value])
    ensures r.None? ==> forall i :: k <= i < |Extensions| ==> !SuffixMatches(src, Extensions[i])
    decreases |Extensions| - k
  {
    if k == |Extensions| then None
    else if SuffixMatches(src, Extensions[k]) then Some(k)
    else FirstMatch(src, k + 1)
  }

  /** The last two characters of an extension, which tell the five apart. */
  lemma MatchedTail(s: string, i: nat)
    requires i < |Extensions| && SuffixMatches(s, Extensions[i])
    ensures ToLowerAscii(s[|s| - 1]) == Extensions[i][|Extensions[i]| - 1]
    ensures ToLowerAscii(s[|s| - 2]) == Extensions[i][|Extensions[i]| - 2]
  {
    var e := Extensions[i];
    var t := s[|s| - |e|..];
    assert ToLowerAscii(t[|e| - 1]) == ToLowerAscii(e[|e| - 1]);
    assert ToLowerAscii(t[|e| - 2]) == ToLowerAscii(e[|e| - 2]);
  }

  /** A name ends with at most one of the extensions. */
  lemma MatchUnique(s: string, i: nat, j: nat)
    requires i < |Extensions| && j < |Extensions|
    requires SuffixMatches(s, Extensions[i]) && SuffixMatches(s, Extensions[j])
    ensures i == j
  {
    MatchedTail(s, i);
    MatchedTail(s, j);
  }

  /**
   * The extension kept for a copy of `src`: its own final extension, with
   * the case it is written in, when it is one of the five; `.jpg` otherwise.
   */
  function KeptExtension(src: string): (r: string)
    ensures (forall i :: 0 <= i < |Extensions| ==> !SuffixMatches(src, Extensions[i])) ==> r == DefaultExtension
    ensures forall i :: 0 <= i < |Extensions| && SuffixMatches(src, Extensions[i]) ==>
      r == src[|src| - |Extensions[i]|..] && EqualsIgnoringCase(r, Extensions[i])
  {
    match FirstMatch(src, 0)
    case None => DefaultExtension
    case Some(i) =>
      forall j | 0 <= j < |Extensions| && SuffixMatches(src, Extensions[j])
        ensures j == i
      {
        MatchUnique(src, i, j);
      }
      src[|src| - |Extensions[i]|..]
  }

  /** A name ending in an accepted extension keeps it exactly as written, `.PNG` as `.PNG`. */
  lemma ExtensionKeepsCase(base: string, x: string, i: nat)
    requires i < |Extensions| && EqualsIgnoringCase(x, Extensions[i])
    ensures KeptExtension(base + x) == x
  {
    var s := base + x;
    assert s[|s| - |x|..] == x;
    assert SuffixMatches(s, Extensions[i]);
  }

  /** Only the very end of the name counts: an accepted extension followed by `.txt` is not kept. */
  lemma TrailingTextIgnored(base: string)
    ensures KeptExtension(base + ".txt") == DefaultExtension
  {
    var s := base + ".txt";
    assert s[|s| - 1] == 't';
    forall i | 0 <= i < |Extensions|
      ensures !SuffixMatches(s, Extensions[i])
    {
      if SuffixMatches(s, Extensions[i]) {
        MatchedTail(s, i);
      }
    }
  }

  /**
   * Where a picked image ends up: its copy `<cacheDirectory>post_<now><ext>`
   * when the copy succeeds, the picker's own URI when it fails. A null
   * cache directory is written `null`, as string concatenation does.
   */
  function PickedImage(src: string, cacheDirectory: Option<string>, now: int, copyOk: bool): (r: string)
    ensures copyOk ==> r == NullableText(cacheDirectory) + ("post_" + (IntToString(now) + KeptExtension(src)))
    ensures copyOk ==> StartsWith(r, NullableText(cacheDirectory)) && EndsWith(r, KeptExtension(src))
    ensures !copyOk ==> r == src
  {
    if copyOk then
      Affixes(NullableText(cacheDirectory), "post_", IntToString(now), KeptExtension(src));
      NullableText(cacheDirectory) + ("post_" + (IntToString(now) + KeptExtension(src)))
    else src
  }

  /** Where a camera photo ends up: its copy `<cacheDirectory>post_<now>.jpg`, or the camera's URI when the copy fails. */
  function TakenImage(src: string, cacheDirectory: Option<string>, now: int, copyOk: bool): (r: string)
    ensures copyOk ==> r == NullableText(cacheDirectory) + ("post_" + (IntToString(now) + DefaultExtension))
    ensures copyOk ==> StartsWith(r, NullableText(cacheDirectory)) && EndsWith(r, DefaultExtension)
    ensures !copyOk ==> r == src
  {
    if copyOk then
      Affixes(NullableText(cacheDirectory), "post_", IntToString(now), DefaultExtension);
      NullableText(cacheDirectory) + ("post_" + (IntToString(now) + DefaultExtension))
    else src
  }

  /** What the image library's promise settles to. */
  datatype LibraryResult = Canceled | Chosen(uri: string) | LibraryRejected

  /** A handler's new image, and whether the promise it returns is rejected. */
  datatype ImageStep = ImageStep(image: Option<string>, rejected: bool)

  /**
   * `pickImage`: a cancelled picker keeps the current image; the library's
   * rejection is awaited outside the `try`, so it keeps the image too and
   * rejects the handler.
   */
  function PickImage(current: Option<string>, picked: LibraryResult, cacheDirectory: Option<string>, now: int, copyOk: bool): (r: ImageStep)
    ensures r.rejected <==> picked.LibraryRejected?
    ensures !picked.Chosen? ==> r.image == current
    ensures picked.Chosen? ==> r.image == Some(PickedImage(picked.uri, cacheDirectory, now, copyOk))
  {
    match picked
    case Canceled => ImageStep(current, false)
    case LibraryRejected => ImageStep(current, true)
    case Chosen(src) => ImageStep(Some(PickedImage(src, cacheDirectory, now, copyOk)), false)
  }

  /**
   * `takePicture`: nothing happens while the camera is not attached. The
   * photo (`None` when `takePictureAsync` rejects, which is awaited outside
   * the `try`, so the handler rejects) replaces the image with its copy.
   */
  function TakePicture(current: Option<string>, attached: bool, photo: Option<string>, cacheDirectory: Option<string>, now: int, copyOk: bool): (r: ImageStep)
    ensures r.rejected <==> attached && photo.None?
    ensures !(attached && photo.Some?) ==> r.image == current
    ensures attached && photo.Some? ==> r.image == Some(TakenImage(photo.value, cacheDirectory, now, copyOk))
  {
    if !attached then ImageStep(current, false)
    else match photo
      case None => ImageStep(current, true)
      case Some(src) => ImageStep(Some(TakenImage(src, cacheDirectory, now, copyOk)), false)
  }

  /** A photo taken and kept is a `.jpg` image, whatever was shown before. */
  lemma TakenPictureIsJpg(current: Option<string>, photo: string, cacheDirectory: Option<string>, now: int)
    ensures var r := TakePicture(current, true, Some(photo), cacheDirectory, now, true);
      !r.rejected && r.image.Some? && KeptExtension(r.image.value) == DefaultExtension
  {
    TakenImageIsJpg(photo, cacheDirectory, now);
  }

  /**
   * A kept copy is named so that picking it again keeps the same extension:
   * the copy ends with the extension its source was kept under.
   */
  lemma CopyKeepsExtension(src: string, cacheDirectory: Option<string>, now: int)
    ensures KeptExtension(PickedImage(src, cacheDirectory, now, true)) == KeptExtension(src)
  {
    var ext := KeptExtension(src);
    var base := NullableText(cacheDirectory) + ("post_" + IntToString(now));
    assert PickedImage(src, cacheDirectory, now, true) == base + ext;
    match FirstMatch(src, 0)
    case None =>
      assert EqualsIgnoringCase(DefaultExtension, Extensions[0]);
      ExtensionKeepsCase(base, DefaultExtension, 0);
    case Some(i) =>
      ExtensionKeepsCase(base, ext, i);
  }

  /** A kept camera photo is a `.jpg` file whenever it is picked again. */
  lemma TakenImageIsJpg(src: string, cacheDirectory: Option<string>, now: int)
    ensures KeptExtension(TakenImage(src, cacheDirectory, now, true)) == DefaultExtension
  {
    var base := NullableText(cacheDirectory) + ("post_" + IntToString(now));
    assert TakenImage(src, cacheDirectory, now, true) == base + DefaultExtension;
    assert EqualsIgnoringCase(DefaultExtension, Extensions[0]);
    ExtensionKeepsCase(base, DefaultExtension, 0);
  }

  // ---------------------------------------------------------------------
  // Camera facing

  datatype Facing = Back | Front

  function ToggleFacing(f: Facing): (r: Facing)
    ensures r != f
  {
    if f == Back then Front else Back
  }

  lemma ToggleFacingInvolution(f: Facing)
    ensures ToggleFacing(ToggleFacing(f)) == f
  {
  }

  // ---------------------------------------------------------------------
  // Camera permission

  /** A camera-permission response. */
  datatype Permission = Permission(granted: bool, canAskAgain: bool)

  const SettingsNeeded := Alert("Permissão Necessária", "A permissão de câmera foi negada anteriormente. Para usar esta funcionalidade, você precisa permitir o acesso à câmera nas configurações do seu dispositivo.")
  const PermissionDenied := Alert("Permissão Negada", "A permissão de câmera é necessária para criar postagens.")

  /**
   * The result of one `checkAndRequestPermission` run: whether the
   * permission was requested, whether this run makes the screen ready
   * (`isReady` is only ever set to true, never back), and the dialog
   * shown, each of whose buttons leads back.
   */
  datatype PermissionOutcome = PermissionOutcome(requested: bool, becameReady: bool, dialog: Option<Alert>)

  /**
   * `checkAndRequestPermission`, with `permission` the hook's current value
   * (`None` while it loads) and `response` what a request would return.
   */
  function CheckPermission(permission: Option<Permission>, response: Permission): (r: PermissionOutcome)
    ensures permission.None? ==> r == PermissionOutcome(false, false, None)
    ensures r.requested <==> permission.Some? && !permission.value.granted
    ensures r.becameReady <==> permission.Some? && (permission.value.granted || response.granted)
    ensures r.dialog.Some? <==> r.requested && !response.granted
    ensures r.dialog == Some(SettingsNeeded) <==> r.requested && !response.granted && !response.canAskAgain
    ensures r.dialog.Some? ==> !r.becameReady
  {
    match permission
    case None => PermissionOutcome(false, false, None)
    case Some(p) =>
      if p.granted then PermissionOutcome(false, true, None)
      else if response.granted then PermissionOutcome(true, true, None)
      else if !response.canAskAgain then PermissionOutcome(true, false, Some(SettingsNeeded))
      else PermissionOutcome(true, false, Some(PermissionDenied))
  }

  /**
   * Once a request has granted the permission, the effect's next run (the
   * hook now reporting that response) makes the screen ready at once and
   * asks nothing.
   */
  lemma RerunAfterGrant(p: Permission, response: Permission, next: Permission)
    requires CheckPermission(Some(p), response).requested && response.granted
    ensures CheckPermission(Some(response), next) == PermissionOutcome(false, true, None)
  {
  }

  /** After a refusal, a rerun does not make the screen ready until some response grants the permission. */
  lemma RefusalStaysBlocked(p: Permission, response: Permission, next: Permission)
    requires CheckPermission(Some(p), response).dialog.Some? && !next.granted
    ensures !CheckPermission(Some(response), next).becameReady
  {
  }
}

=== FILE: eventcard.dfy ===
/**
 * The event card: the day-distance badge, the attendance toggle and the
 * participant summary under the event.
 */
module EventCard {
  import opened Wrappers
  import opened Text

  /** `1000 * 60 * 60 * 24` */
  const MsPerDay := 86400000

  /** `Math.ceil(diffMs / MsPerDay)`, where `diffMs` is the event's start minus now, in milliseconds. */
  function DaysUntil(diffMs: int): (d: int)
    ensures (d - 1) * MsPerDay < diffMs <= d * MsPerDay
  {
    -((-diffMs) / MsPerDay)
  }

  /** The ceiling is the only whole number of days with that property. */
  lemma DaysUntilUnique(diffMs: int, e: int)
    requires (e - 1) * MsPerDay < diffMs <= e * MsPerDay
    ensures e == DaysUntil(diffMs)
  {
  }

  const Today := "HOJE"
  const Tomorrow := "AMANHÃ"
  const AgoPrefix := "HÁ "
  const InPrefix := "EM "
  const DaysSuffix := " DIAS"

  lemma FixedBadgesUncounted()
    ensures !StartsWith(Today, AgoPrefix) && !StartsWith(Today, InPrefix)
    ensures !StartsWith(Tomorrow, AgoPrefix) && !StartsWith(Tomorrow, InPrefix)
  {
    assert Today[..3][1] != AgoPrefix[1] && Today[..3][0] != InPrefix[0];
    assert Tomorrow[..3][0] != AgoPrefix[0] && Tomorrow[..3][0] != InPrefix[0];
  }

  /** The badge for a day count: today, tomorrow, so many days ago, or in so many days. */
  function DayLabel(d: int): (r: string)
    ensures r == Today <==> d == 0
    ensures r == Tomorrow <==> d == 1
    ensures StartsWith(r, AgoPrefix) <==> d < 0
    ensures StartsWith(r, InPrefix) <==> d >= 2
  {
    if d == 0 then FixedBadgesUncounted(); Today
    else if d == 1 then FixedBadgesUncounted(); Tomorrow
    else if d < 0 then AgoPrefix + (NatToString(-d) + DaysSuffix)
    else InPrefix + (NatToString(d) + DaysSuffix)
  }

  /** The day count a badge stands for. */
  function ReadDayLabel(s: string): Option<int> {
    if s == Today then Some(0)
    else if s == Tomorrow then Some(1)
    else if |s| < 9 || !EndsWith(s, DaysSuffix) || !AllDigits(s[3..|s| - 5]) then None
    else if StartsWith(s, AgoPrefix) then Some(0 - ParseNat(s[3..|s| - 5]) as int)
    else if StartsWith(s, InPrefix) then Some(ParseNat(s[3..|s| - 5]))
    else None
  }

  lemma CountedLabelLayout(p: string, k: nat)
    requires |p| == 3
    ensures var s := p + (NatToString(k) + DaysSuffix);
      |s| >= 9 && EndsWith(s, DaysSuffix) && s[..3] == p && s[3..|s| - 5] == NatToString(k)
  {
    var s := p + (NatToString(k) + DaysSuffix);
    assert s[3..|s| - 5] == NatToString(k);
  }

  lemma ReadAgoLabel(k: nat)
    requires k >= 1
    ensures ReadDayLabel(AgoPrefix + (NatToString(k) + DaysSuffix)) == Some(0 - k)
  {
    var s := AgoPrefix + (NatToString(k) + DaysSuffix);
    CountedLabelLayout(AgoPrefix, k);
    assert s != Today && s != Tomorrow;
    assert StartsWith(s, AgoPrefix);
    ParseNatToString(k);
  }

  lemma ReadInLabel(k: nat)
    requires k >= 2
    ensures ReadDayLabel(InPrefix + (NatToString(k) + DaysSuffix)) == Some(k)
  {
    var s := InPrefix + (NatToString(k) + DaysSuffix);
    CountedLabelLayout(InPrefix, k);
    assert s != Today && s != Tomorrow;
    assert s[..3] != AgoPrefix;
    assert StartsWith(s, InPrefix);
    ParseNatToString(k);
  }

  /** Every badge reads back as its day count, so different counts never share a badge. */
  lemma ReadDayLabelRoundTrip(d: int)
    ensures ReadDayLabel(DayLabel(d)) == Some(d)
  {
    if d < 0 {
      assert DayLabel(d) == AgoPrefix + (NatToString(-d) + DaysSuffix);
      ReadAgoLabel(-d);
    } else if d >= 2 {
      assert DayLabel(d) == InPrefix + (NatToString(d) + DaysSuffix);
      ReadInLabel(d);
    } else if d == 0 {
      assert DayLabel(d) == Today;
    } else {
      assert DayLabel(d) == Tomorrow;
    }
  }

  // ---------------------------------------------------------------------
  // Attendance

  datatype Verb = Post | Delete

  datatype Request = Request(verb: Verb, path: string)

  /** The call of the optional `onPresencaToggle(eventoId, confirmado)` callback, made when the parent gave one. */
  datatype Notified = Notified(eventoId: int, confirmado: bool)

  datatype ToggleOutcome = ToggleOutcome(request: Request, notified: Option<Notified>)

  /**
   * `handlePresencaToggle`: a confirmed attendee withdraws with a DELETE, any
   * other user confirms with a POST; the callback, when one is given, hears
   * the new flag only when the request succeeds, and a failure is only logged.
   */
  function TogglePresence(eventoId: int, confirmed: bool, requestOk: bool): (r: ToggleOutcome)
    ensures r.request.verb == Delete <==> confirmed
    ensures r.request.path == "/evento/" + IntToString(eventoId) + "/confirmar"
    ensures r.notified.Some? <==> requestOk
    ensures r.notified.Some? ==> r.notified.value.eventoId == eventoId && r.notified.value.confirmado != confirmed
  {
    var path := "/evento/" + IntToString(eventoId) + "/confirmar";
    var request := if confirmed then Request(Delete, path) else Request(Post, path);
    ToggleOutcome(request, if requestOk then Some(Notified(eventoId, !confirmed)) else None)
  }

  /**
   * When the parent stores the flag it is told, a second successful tap
   * undoes the first: the opposite request goes out and the original flag
   * comes back.
   */
  lemma ToggleTwiceRestores(eventoId: int, confirmed: bool)
    ensures var first := TogglePresence(eventoId, confirmed, true);
      var second := TogglePresence(eventoId, first.notified.value.confirmado, true);
      && second.request.verb != first.request.verb
      && second.notified == Some(Notified(eventoId, confirmed))
  {
  }

  // ---------------------------------------------------------------------
  // Participants

  datatype Participant = Participant(id: int, nome: string, nomeUsuario: string, fotoPerfil: Option<string>)

  const DefaultAvatar := "https://i.imgur.com/Qk9RNAB.png"
  const MaxAvatars := 3

  /** `fotoPerfil || DefaultAvatar`: a missing or empty photo falls back to the placeholder. */
  function AvatarUri(foto: Option<string>): (r: string)
    ensures r != ""
    ensures foto.Some? && foto.value != "" ==> r == foto.value
  {
    if foto.Some? && foto.value != "" then foto.value else DefaultAvatar
  }

  /** `participantes[0]?.nomeUsuario || 'pessoas'` */
  function LeadName(ps: seq<Participant>): (r: string)
    ensures r != ""
    ensures |ps| > 0 && ps[0].nomeUsuario != "" ==> r == ps[0].nomeUsuario
    ensures (|ps| == 0 || ps[0].nomeUsuario == "") ==> r == "pessoas"
  {
    if |ps| > 0 && ps[0].nomeUsuario != "" then ps[0].nomeUsuario else "pessoas"
  }

  /** ` e outros <n - 1>` when there is more than one participant, nothing otherwise. */
  function Others(count: int): string {
    if count > 1 then " e outros " + NatToString(count - 1) else ""
  }

  datatype Summary = Summary(avatars: seq<string>, text: string)

  /** The participant block: absent unless the count is positive; at most three avatars; the "liked by" text. */
  function ParticipantSummary(count: int, ps: seq<Participant>): (r: Option<Summary>)
    ensures r.Some? <==> count > 0
    ensures r.Some? ==> |r.value.avatars| == (if |ps| < MaxAvatars then |ps| else MaxAvatars)
    ensures r.Some? ==> forall i :: 0 <= i < |r.value.avatars| ==> r.value.avatars[i] == AvatarUri(ps[i].fotoPerfil)
    ensures r.Some? ==> StartsWith(r.value.text, "Curtido por " + LeadName(ps)) && EndsWith(r.value.text, "...")
    ensures count == 1 ==> r.value.text == ("Curtido por " + LeadName(ps)) + "..."
    ensures count > 1 ==> r.value.text == ("Curtido por " + LeadName(ps)) + ((" e outros " + NatToString(count - 1)) + "...")
  {
    if count <= 0 then None
    else
      var shown := if |ps| < MaxAvatars then ps else ps[..MaxAvatars];
      var avatars := seq(|shown|, i requires 0 <= i < |shown| => AvatarUri(shown[i].fotoPerfil));
      Some(Summary(avatars, ("Curtido por " + LeadName(ps)) + (Others(count) + "...")))
  }

  /** The text tells a single participant apart from several. */
  lemma OthersShownIffSeveral(count: int)
    requires count > 0
    ensures Others(count) == "" <==> count == 1
  {
  }

  lemma OthersInjective(a: int, b: int)
    requires a > 0 && b > 0 && Others(a) == Others(b)
    ensures a == b
  {
    if a > 1 && b > 1 {
      PrefixCancel(" e outros ", NatToString(a - 1), NatToString(b - 1));
      ParseNatToString(a - 1);
      ParseNatToString(b - 1);
    }
  }

  /** For the same participants, the summary text determines the count. */
  lemma SummaryTextDeterminesCount(a: int, b: int, ps: seq<Participant>)
    requires a > 0 && b > 0
    requires ParticipantSummary(a, ps).value.text == ParticipantSummary(b, ps).value.text
    ensures a == b
  {
    var head := "Curtido por " + LeadName(ps);
    assert head + (Others(a) + "...") == head + (Others(b) + "...");
    PrefixCancel(head, Others(a) + "...", Others(b) + "...");
    SuffixCancel(Others(a), Others(b), "...");
    OthersInjective(a, b);
  }
}

=== FILE: goals.dfy ===
/**
 * The goal screens: creating a goal with a deadline (`criarMeta`), and the
 * goal list, whose tick button flips a goal between pending and done
 * (`alternarStatusMeta`). Clock readings and API outcomes are parameters;
 * a `Date` is represented by its local calendar fields.
 */
module Goals {
  import opened Wrappers
  import opened Text
  import opened Calendar
  import opened Alerts

  // ---------------------------------------------------------------------
  // Creating a goal

  /** The create-goal form: the name typed, the deadline picked, the picker's visibility and the spinner. */
  datatype GoalForm = GoalForm(nome: string, dataFim: LocalDate, showPicker: bool, loading: bool)

  /** `handleDateChange`: the picker closes; a picked date becomes the deadline, a dismissal keeps the old one. */
  function HandleDateChange(f: GoalForm, selected: Option<LocalDate>): (r: GoalForm)
    ensures !r.showPicker
    ensures r.nome == f.nome && r.loading == f.loading
    ensures selected.Some? ==> r.dataFim == selected.value
    ensures selected.None? ==> r.dataFim == f.dataFim
  {
    f.(showPicker := false, dataFim := selected.GetOr(f.dataFim))
  }

  const NameMissing := "Por favor, insira um nome para a meta."
  const DeadlinePassed := "A data limite deve ser hoje ou uma data futura."

  /** The body of `POST /meta`. */
  datatype GoalBody = GoalBody(nome: string, dataInicio: string, dataFim: string)

  datatype CreateOutcome = CreateOutcome(sent: Option<GoalBody>, alert: Alert, backOnOk: bool, loading: bool)

  const GoalCreated := Alert("Sucesso", "Meta criada com sucesso!")
  const CreateFallback := "Não foi possível criar a meta. Tente novamente."

  /**
   * `criarMeta` on the form, with `today` the local date when it runs and
   * `reply` the outcome of the request: `Failure(m)` carries the server's
   * `message`, if any.
   */
  function CreateGoal(f: GoalForm, today: LocalDate, reply: Result<(), Option<string>>): (r: CreateOutcome)
    ensures !r.loading
    ensures IsBlank(f.nome) ==> r == CreateOutcome(None, Alert("Erro", NameMissing), false, false)
    ensures !IsBlank(f.nome) && DateBefore(f.dataFim, today) ==> r == CreateOutcome(None, Alert("Erro", DeadlinePassed), false, false)
    ensures r.sent.Some? <==> !IsBlank(f.nome) && !DateBefore(f.dataFim, today)
    ensures r.sent.Some? ==> r.sent.value == GoalBody(Trim(f.nome), FormatDate(today), FormatDate(f.dataFim))
    ensures r.backOnOk <==> r.sent.Some? && reply.Success?
    ensures r.backOnOk ==> r.alert == GoalCreated
    ensures r.sent.Some? && reply.Failure? ==> r.alert == Alert("Erro", OrElse(reply.error, CreateFallback))
  {
    if IsBlank(f.nome) then CreateOutcome(None, Alert("Erro", NameMissing), false, false)
    else if DateBefore(f.dataFim, today) then CreateOutcome(None, Alert("Erro", DeadlinePassed), false, false)
    else
      var body := GoalBody(Trim(f.nome), FormatDate(today), FormatDate(f.dataFim));
      match reply
      case Success(_) => CreateOutcome(Some(body), GoalCreated, true, false)
      case Failure(message) => CreateOutcome(Some(body), Alert("Erro", OrElse(message, CreateFallback)), false, false)
  }

  /** The deadline is compared by calendar day alone: today passes, any earlier day fails. */
  lemma DeadlineTodayAccepted(f: GoalForm, today: LocalDate, reply: Result<(), Option<string>>)
    requires !IsBlank(f.nome) && f.dataFim == today
    ensures CreateGoal(f, today, reply).sent.Some?
  {
  }

  /**
   * An accepted goal never starts after it ends: for years printed with the
   * same number of digits, the body's `dataInicio` is not greater than its
   * `dataFim` as a string, which is how the server compares them.
   */
  lemma SentGoalIsOrdered(f: GoalForm, today: LocalDate, reply: Result<(), Option<string>>)
    requires CreateGoal(f, today, reply).sent.Some?
    requires 0 <= today.year && 0 <= f.dataFim.year
    requires |NatToString(today.year)| == |NatToString(f.dataFim.year)|
    ensures var b := CreateGoal(f, today, reply).sent.value;
      !LexLess(b.dataFim, b.dataInicio) && b.nome != ""
  {
    FormatDateOrder(f.dataFim, today);
    TrimEmptyIffAllWhitespace(f.nome);
  }

  /** Dismissing the picker after picking a date keeps the picked date. */
  lemma DismissKeepsPick(f: GoalForm, d: LocalDate)
    ensures HandleDateChange(HandleDateChange(f, Some(d)), None).dataFim == d
  {
  }

  /** The deadline picked last is the one the goal is created with. */
  lemma PickedDeadlineIsSent(f: GoalForm, d: LocalDate, today: LocalDate, reply: Result<(), Option<string>>)
    requires !IsBlank(f.nome) && !DateBefore(d, today)
    ensures CreateGoal(HandleDateChange(f, Some(d)), today, reply).sent.Some?
    ensures CreateGoal(HandleDateChange(f, Some(d)), today, reply).sent.value.dataFim == FormatDate(d)
  {
  }

  // ---------------------------------------------------------------------
  // The goal list

  datatype Status = Pendente | Concluida

  /** How a status is written in a request body. */
  function StatusText(s: Status): string {
    match s
    case Pendente => "PENDENTE"
    case Concluida => "CONCLUIDA"
  }

  /** The tick button's new status: done becomes pending, anything else becomes done. */
  function Flip(s: Status): (r: Status)
    ensures r != s
  {
    if s == Concluida then Pendente else Concluida
  }

  lemma FlipInvolution(s: Status)
    ensures Flip(Flip(s)) == s
  {
  }

  /** A goal as `GET /meta/me` lists it; `dataFim` is the server's ISO text. */
  datatype Goal = Goal(id: string, nome: string, publica: bool, status: Status, dataFim: string)

  /** The body of `PUT /meta/{id}`. */
  datatype GoalUpdate = GoalUpdate(nome: string, status: string, dataFim: string)

  datatype ListState = ListState(metas: seq<Goal>, loading: bool, refreshing: bool, updatingMetaId: Option<string>)

  /** The local update after a successful PUT: every goal with the tapped id takes the new status. */
  function SetStatus(metas: seq<Goal>, id: string, status: Status): (r: seq<Goal>)
    ensures |r| == |metas|
    ensures forall i :: 0 <= i < |metas| && metas[i].id == id ==> r[i] == metas[i].(status := status)
    ensures forall i :: 0 <= i < |metas| && metas[i].id != id ==> r[i] == metas[i]
  {
    seq(|metas|, i requires 0 <= i < |metas| => if metas[i].id == id then metas[i].(status := status) else metas[i])
  }

  datatype ToggleOutcome = ToggleOutcome(path: string, body: GoalUpdate, state: ListState)

  /**
   * `alternarStatusMeta(meta)`, with `deadline` the local calendar date of
   * `new Date(meta.dataFim)`: the PUT carries the name, the flipped status
   * and the deadline as `Y-MM-DD`; only a successful PUT touches the list;
   * the row's spinner is off afterwards.
   */
  function ToggleStatus(s: ListState, meta: Goal, deadline: LocalDate, putOk: bool): (r: ToggleOutcome)
    ensures r.path == "/meta/" + meta.id
    ensures r.body == GoalUpdate(meta.nome, StatusText(Flip(meta.status)), FormatDate(deadline))
    ensures r.state.updatingMetaId.None?
    ensures r.state.loading == s.loading && r.state.refreshing == s.refreshing
    ensures !putOk ==> r.state.metas == s.metas
    ensures putOk ==> r.state.metas == SetStatus(s.metas, meta.id, Flip(meta.status))
  {
    var novo := Flip(meta.status);
    var metas := if putOk then SetStatus(s.metas, meta.id, novo) else s.metas;
    ToggleOutcome("/meta/" + meta.id, GoalUpdate(meta.nome, StatusText(novo), FormatDate(deadline)), s.(metas := metas, updatingMetaId := None))
  }

  /** Whether every listed goal with `meta`'s id shows `meta`'s status, as when `meta` is a row just tapped. */
  predicate ShowsAsListed(metas: seq<Goal>, meta: Goal) {
    forall i :: 0 <= i < |metas| && metas[i].id == meta.id ==> metas[i].status == meta.status
  }

  /** Tapping a goal twice, both requests succeeding, gives back the list it started from. */
  lemma ToggleTwiceRestores(s: ListState, meta: Goal, deadline: LocalDate)
    requires ShowsAsListed(s.metas, meta)
    ensures var once := ToggleStatus(s, meta, deadline, true).state;
      var twice := ToggleStatus(once, meta.(status := Flip(meta.status)), deadline, true).state;
      twice.metas == s.metas
  {
    var once := ToggleStatus(s, meta, deadline, true).state;
    var twice := ToggleStatus(once, meta.(status := Flip(meta.status)), deadline, true).state;
    assert |twice.metas| == |s.metas|;
    forall i | 0 <= i < |s.metas|
      ensures twice.metas[i] == s.metas[i]
    {
      if s.metas[i].id == meta.id {
        FlipInvolution(meta.status);
      }
    }
  }

  /** `buscarMetas`: the list is replaced by the server's on success and kept on failure; the spinner is off afterwards. */
  function FetchGoals(s: ListState, reply: Option<seq<Goal>>): (r: ListState)
    ensures !r.loading
    ensures reply.Some? ==> r.metas == reply.value
    ensures reply.None? ==> r.metas == s.metas
    ensures r.updatingMetaId == s.updatingMetaId && r.refreshing == s.refreshing
  {
    s.(loading := false, metas := reply.GetOr(s.metas))
  }

  /** Pull to refresh: a fetch with the refresh indicator shown during it and hidden after. */
  function Refresh(s: ListState, reply: Option<seq<Goal>>): (r: ListState)
    ensures !r.loading && !r.refreshing
    ensures r.metas == FetchGoals(s, reply).metas
  {
    FetchGoals(s.(refreshing := true), reply).(refreshing := false)
  }

  /** Refreshing again against the same server list changes nothing. */
  lemma RefreshIdempotent(s: ListState, reply: Option<seq<Goal>>)
    ensures Refresh(Refresh(s, reply), reply) == Refresh(s, reply)
  {
  }

  /** After a failed fetch, a pull to refresh that succeeds shows the server's list. */
  lemma RefreshRecoversFromFailedFetch(s: ListState, goals: seq<Goal>)
    ensures Refresh(FetchGoals(s, None), Some(goals)).metas == goals
    ensures FetchGoals(s, None).metas == s.metas
  {
  }
}

=== FILE: notifications.dfy ===
/** One row of the notifications screen: an icon per kind, the `@` handle, and the text or the kind's default. */
module Notifications {
  import opened Wrappers

  datatype Kind = Like | Follow | Message

  /** `ICONS[kind]` */
  function Icon(k: Kind): string {
    match k
    case Like => "heart"
    case Follow => "person-add"
    case Message => "chatbubble-outline"
  }

  /** The text shown when the notification carries none. */
  function DefaultText(k: Kind): string {
    match k
    case Like => "curtiu sua postagem"
    case Follow => "seguiu você"
    case Message => "enviou uma mensagem"
  }

  /** Different kinds never share an icon or a default text, so each row tells its kind. */
  lemma KindsDistinguishable(a: Kind, b: Kind)
    requires a != b
    ensures Icon(a) != Icon(b) && DefaultText(a) != DefaultText(b)
  {
    match a
    case Like => assert Icon(a)[0] != Icon(b)[0] && DefaultText(a)[0] != DefaultText(b)[0];
    case Follow =>
      assert Icon(a)[0] != Icon(b)[0];
      assert DefaultText(a)[0] != DefaultText(b)[0];
    case Message =>
      assert Icon(a)[0] != Icon(b)[0];
      assert DefaultText(a)[0] != DefaultText(b)[0];
  }

  datatype Row = Row(icon: string, handle: string, text: string)

  /** `NotificationItem`: the text is the given one whenever it is not null or undefined, even when empty (`text ?? default`). */
  function RowFor(username: string, k: Kind, text: Option<string>): (r: Row)
    ensures r.icon == Icon(k)
    ensures r.handle == "@" + username && r.handle[1..] == username
    ensures text.Some? ==> r.text == text.value
    ensures text.None? ==> r.text == DefaultText(k)
  {
    Row(Icon(k), "@" + username, text.GetOr(DefaultText(k)))
  }
}

=== FILE: postform.dfy ===
/**
 * The new-post form: the picked image's URI arrives as a route parameter,
 * is normalised in an effect, and `handlePost` validates the form, uploads
 * the image and posts. The upload and API outcomes, the clock and the cache
 * copy are parameters.
 */
module PostForm {
  import opened Wrappers
  import opened Text
  import opened Alerts
  import opened Session

  // ---------------------------------------------------------------------
  // The image parameter

  /** A route parameter: absent, one value, or repeated. */
  datatype Param = Absent | Single(value: string) | Repeated(values: seq<string>)

  /** The parameter's first value; an empty repetition has none. */
  function SelectedImage(p: Param): (r: Option<string>)
    ensures p.Single? ==> r == Some(p.value)
    ensures p.Repeated? && |p.values| > 0 ==> r == Some(p.values[0])
    ensures r.None? <==> p.Absent? || (p.Repeated? && |p.values| == 0)
  {
    match p
    case Absent => None
    case Single(v) => Some(v)
    case Repeated(vs) => if |vs| > 0 then Some(vs[0]) else None
  }

  /** `previewUri`: the selected value when it is a non-empty text (URI decoding is not modelled). */
  function PreviewUri(p: Param): (r: Option<string>)
    ensures r.Some? <==> Present(SelectedImage(p))
    ensures r.Some? ==> r == SelectedImage(p)
  {
    var selected := SelectedImage(p);
    if Present(selected) then selected else None
  }

  // ---------------------------------------------------------------------
  // URI normalisation

  /** `u.trim().replace(/^"|"$/g, '')`: trim, then drop one leading and one trailing double quote. */
  function StripQuotes(u: string): string {
    var t := Trim(u);
    var a := if |t| > 0 && t[0] == '"' then 1 else 0;
    var b := if |t| > a && t[|t| - 1] == '"' then |t| - 1 else |t|;
    t[a..b]
  }

  /** Text that is quoted on neither end comes out trimmed and otherwise untouched. */
  lemma StripQuotesUnquoted(u: string)
    requires var t := Trim(u); |t| == 0 || (t[0] != '"' && t[|t| - 1] != '"')
    ensures StripQuotes(u) == Trim(u)
  {
  }

  /** Text quoted on both ends loses exactly those two quotes, and nothing inside them. */
  lemma StripQuotesQuoted(u: string, m: string)
    requires Trim(u) == "\"" + (m + "\"")
    ensures StripQuotes(u) == m
  {
    var t := Trim(u);
    assert t[1..|t| - 1] == m;
  }

  /** Stripping `"` + m + `"` when that text has no surrounding whitespace. */
  lemma StripQuotesOfQuoted(m: string)
    ensures StripQuotes("\"" + (m + "\"")) == m
  {
    var w := "\"" + (m + "\"");
    assert w[0] == '"' && w[|w| - 1] == '"';
    TrimUnpadded(w);
    StripQuotesQuoted(w, m);
  }

  /** Only one quote is removed at each end, so stripping again can remove more: the step is not idempotent. */
  lemma StripQuotesNotIdempotent()
    ensures StripQuotes("\"\"a\"\"") == "\"a\""
    ensures StripQuotes(StripQuotes("\"\"a\"\"")) == "a"
  {
    StripQuotesOfQuoted("\"a\"");
    assert "\"" + ("\"a\"" + "\"") == "\"\"a\"\"";
    StripQuotesOfQuoted("a");
    assert "\"" + ("a" + "\"") == "\"a\"";
  }

  /** How many `/` begin `s`. */
  function LeadingSlashes(s: string): (n: nat)
    ensures n <= |s|
    ensures forall i :: 0 <= i < n ==> s[i] == '/'
    ensures n < |s| ==> s[n] != '/'
    decreases |s|
  {
    if |s| > 0 && s[0] == '/' then 1 + LeadingSlashes(s[1..]) else 0
  }

  const FilePrefix := "file:"
  const FileRoot := "file:///"

  /**
   * `file:` followed by one or two slashes gets its whole run of slashes
   * replaced by three (`uri.replace(/^file:\/+/, 'file:///')`); anything
   * else is left alone.
   */
  function FixFileSlashes(u: string): (r: string)
    ensures !StartsWith(u, "file:/") || StartsWith(u, FileRoot) ==> r == u
    ensures StartsWith(u, "file:/") && !StartsWith(u, FileRoot) ==>
      && StartsWith(r, FileRoot)
      && r[|FileRoot|..] == u[|FilePrefix| + LeadingSlashes(u[|FilePrefix|..])..]
      && (|r| > |FileRoot| ==> r[|FileRoot|] != '/')
  {
    if StartsWith(u, "file:/") && !StartsWith(u, FileRoot) then
      var rest := u[|FilePrefix|..];
      FileRoot + rest[LeadingSlashes(rest)..]
    else u
  }

  /** Fixing the slashes twice is fixing them once. */
  lemma FixFileSlashesIdempotent(u: string)
    ensures FixFileSlashes(FixFileSlashes(u)) == FixFileSlashes(u)
  {
    var r := FixFileSlashes(u);
    if StartsWith(u, "file:/") && !StartsWith(u, FileRoot) {
      assert r[..|FileRoot|] == FileRoot;
    }
  }

  /** Whether a URI is a content-provider URI, which the effect copies into the cache. */
  predicate IsContentUri(u: string) {
    StartsWith(u, "content://")
  }

  /**
   * The effect's result, `resolvedUri`: no preview resolves to nothing;
   * otherwise quotes are stripped and slashes fixed, and a content URI is
   * replaced by its copy `<cacheDirectory>upload_<now>.jpg` when the copy
   * succeeds (a failed copy keeps the URI). A null cache directory is
   * written `null`, as string concatenation does.
   */
  function ResolveUri(preview: Option<string>, cacheDirectory: Option<string>, now: int, copyOk: bool): (r: Option<string>)
    ensures preview.None? <==> r.None?
    ensures preview.Some? ==>
      var uri := FixFileSlashes(StripQuotes(preview.value));
      && (!IsContentUri(uri) || !copyOk ==> r == Some(uri))
      && (IsContentUri(uri) && copyOk ==> r == Some(NullableText(cacheDirectory) + ("upload_" + (IntToString(now) + ".jpg"))))
      && (IsContentUri(uri) && copyOk ==> StartsWith(r.value, NullableText(cacheDirectory)) && EndsWith(r.value, ".jpg"))
  {
    match preview
    case None => None
    case Some(p) =>
      var uri := FixFileSlashes(StripQuotes(p));
      if IsContentUri(uri) && copyOk then
        Affixes(NullableText(cacheDirectory), "upload_", IntToString(now), ".jpg");
        Some(NullableText(cacheDirectory) + ("upload_" + (IntToString(now) + ".jpg")))
      else Some(uri)
  }

  /** A preview that is nothing but a pair of quotes resolves to the empty text, which the form treats as no image. */
  lemma QuotedEmptyPreview(p: string, cacheDirectory: Option<string>, now: int, copyOk: bool)
    requires Trim(p) == "\"\""
    ensures ResolveUri(Some(p), cacheDirectory, now, copyOk) == Some("")
  {
    StripQuotesQuoted(p, "");
    assert FixFileSlashes("") == "";
  }

  lemma FixShortFileUri(p: string)
    requires StartsWith(p, "file:/") && !StartsWith(p, FileRoot)
    ensures StartsWith(FixFileSlashes(p), FileRoot) && FixFileSlashes(p) != p
  {
    var r := FixFileSlashes(p);
    assert r[..8] == FileRoot;
  }

  lemma FileUriNotContent(u: string)
    requires StartsWith(u, FileRoot)
    ensures !IsContentUri(u)
  {
    assert u[0] != "content://"[0];
  }

  /** A bare `file:/` or `file://` URI resolves to its slash-fixed form, which differs from it. */
  lemma ResolveShortFileUri(p: string, cacheDirectory: Option<string>, now: int, copyOk: bool)
    requires Trim(p) == p && StartsWith(p, "file:/") && !StartsWith(p, FileRoot) && p[|p| - 1] != '"'
    ensures ResolveUri(Some(p), cacheDirectory, now, copyOk) == Some(FixFileSlashes(p))
    ensures FixFileSlashes(p) != p
  {
    StripQuotesUnquoted(p);
    assert StripQuotes(p) == p;
    var u := FixFileSlashes(p);
    FixShortFileUri(p);
    FileUriNotContent(u);
    assert !IsContentUri(u);
  }

  // ---------------------------------------------------------------------
  // Posting

  const DefaultMedia := "https://tse1.mm.bing.net/th/id/OIP.9Ks3otCnYxLp9XUmxruyQgHaD7?rs=1&pid=ImgDetMain&o=7&rm=3"

  const NotSignedIn := Alert("Erro", "Você precisa estar logado para postar.")
  const FieldsMissing := Alert("Erro", "Por favor, preencha o título e a descrição.")
  const UploadNetworkError := Alert("Erro", "Ocorreu um erro de rede ao fazer upload da imagem.")
  const Posted := Alert("Sucesso", "Postagem criada com sucesso!")
  const NotPosted := Alert("Erro", "Não foi possível criar a postagem.")
  const PostRejected := Alert("Erro", "Ocorreu um erro ao criar a postagem.")

  /** The author block copied from the signed-in user. */
  datatype PostAuthor = PostAuthor(id: int, nome: string, biografia: Option<string>, email: string, senha: string, nomeUsuario: string)

  /** The body of `POST <API>/postagem`. */
  datatype PostData = PostData(titulo: string, midia: string, autor: PostAuthor, descricao: string)

  datatype PostOutcome = PostOutcome(uploadedFile: Option<string>, sent: Option<PostData>, alerts: seq<Alert>, navigatedHome: bool)

  function AuthorOf(u: User): PostAuthor {
    PostAuthor(u.id, u.nome, u.biografia, u.email, u.senha, u.nomeUsuario)
  }

  /** The first check that fails, if any: no signed-in user, then an empty title or description (whitespace passes). */
  function CheckPost(userData: Option<User>, title: string, description: string): (r: Option<Alert>)
    ensures userData.None? ==> r == Some(NotSignedIn)
    ensures r.None? <==> userData.Some? && title != "" && description != ""
    ensures userData.Some? && r.Some? ==> r == Some(FieldsMissing)
  {
    if userData.None? then Some(NotSignedIn)
    else if title == "" || description == "" then Some(FieldsMissing)
    else None
  }

  /** Sending the post: 200 and 201 succeed; another status or a rejection (`None`) alert. */
  function Send(u: User, title: string, description: string, midia: string, uploadedFile: Option<string>, status: Option<int>): (r: PostOutcome)
    ensures r.sent == Some(PostData(title, midia, AuthorOf(u), description))
    ensures r.navigatedHome <==> status == Some(200) || status == Some(201)
    ensures r.uploadedFile == uploadedFile
    ensures status.None? ==> r.alerts == [PostRejected]
    ensures status.Some? && (status.value == 200 || status.value == 201) ==> r.alerts == [Posted]
    ensures status.Some? && status.value != 200 && status.value != 201 ==> r.alerts == [NotPosted]
  {
    var body := PostData(title, midia, AuthorOf(u), description);
    match status
    case None => PostOutcome(uploadedFile, Some(body), [PostRejected], false)
    case Some(code) =>
      if code == 201 || code == 200 then PostOutcome(uploadedFile, Some(body), [Posted], true)
      else PostOutcome(uploadedFile, Some(body), [NotPosted], false)
  }

  /**
   * `handlePost` as the screen has it. `uploadImage` uploads `previewUri`
   * (not the resolved URI it is given) and returns nothing once the upload
   * settles, so the `if (uploadedUrl)` test fails and the post is dropped;
   * only a throwing upload (`uploadThrows`) alerts.
   */
  function HandlePostAsWritten(
    userData: Option<User>, title: string, description: string,
    preview: Option<string>, resolved: Option<string>,
    uploadThrows: bool, status: Option<int>): (r: PostOutcome)
    ensures CheckPost(userData, title, description).Some? ==>
      r == PostOutcome(None, None, [CheckPost(userData, title, description).value], false)
  {
    match CheckPost(userData, title, description)
    case Some(alert) => PostOutcome(None, None, [alert], false)
    case None =>
      if Present(resolved) then
        PostOutcome(preview, None, if uploadThrows then [UploadNetworkError] else [], false)
      else Send(userData.value, title, description, DefaultMedia, None, status)
  }

  /** As written, a post with an image is never sent, whatever the upload and the server do. */
  lemma ImagePostNeverSentAsWritten(
    userData: Option<User>, title: string, description: string,
    preview: Option<string>, resolved: Option<string>,
    uploadThrows: bool, status: Option<int>)
    requires Present(resolved)
    ensures HandlePostAsWritten(userData, title, description, preview, resolved, uploadThrows, status).sent.None?
  {
  }

  /**
   * As written, the file handed to the upload is the raw preview whatever it
   * resolved to; `ResolveShortFileUri` shows the two differ for a bare
   * `file:/` preview.
   */
  lemma UploadsRawPreviewAsWritten(
    userData: Option<User>, title: string, description: string,
    preview: Option<string>, resolved: Option<string>, uploadThrows: bool, status: Option<int>)
    requires userData.Some? && title != "" && description != "" && Present(resolved)
    ensures HandlePostAsWritten(userData, title, description, preview, resolved, uploadThrows, status).uploadedFile == preview
  {
  }

  /**
   * `handlePost` with `uploadImage` returning the upload's `secure_url` for
   * the resolved URI. `upload` is that outcome: `None` when the upload
   * throws, otherwise the URL ("" when the response has none, which aborts
   * quietly).
   */
  function HandlePost(
    userData: Option<User>, title: string, description: string,
    resolved: Option<string>, upload: Option<string>, status: Option<int>): (r: PostOutcome)
    ensures CheckPost(userData, title, description).Some? ==>
      r == PostOutcome(None, None, [CheckPost(userData, title, description).value], false)
    ensures r.sent.Some? <==> CheckPost(userData, title, description).None? && (!Present(resolved) || Present(upload))
    ensures r.uploadedFile.Some? <==> CheckPost(userData, title, description).None? && Present(resolved)
    ensures r.uploadedFile.Some? ==> r.uploadedFile == resolved
    ensures r.sent.Some? ==> r.sent.value.midia == (if Present(resolved) then upload.value else DefaultMedia)
    ensures r.sent.Some? ==> r.sent.value.titulo == title && r.sent.value.descricao == description
    ensures r.navigatedHome ==> r.sent.Some?
  {
    match CheckPost(userData, title, description)
    case Some(alert) => PostOutcome(None, None, [alert], false)
    case None =>
      if Present(resolved) then
        match upload
        case None => PostOutcome(resolved, None, [UploadNetworkError], false)
        case Some(url) =>
          if url != "" then Send(userData.value, title, description, url, resolved, status)
          else PostOutcome(resolved, None, [], false)
      else Send(userData.value, title, description, DefaultMedia, None, status)
  }

  /** With the URL returned, a valid post with an image is sent carrying that image and uploads the normalised file. */
  lemma ImagePostSent(u: User, title: string, description: string, resolved: string, url: string, status: Option<int>)
    requires title != "" && description != "" && resolved != "" && url != ""
    ensures var r := HandlePost(Some(u), title, description, Some(resolved), Some(url), status);
      && r.sent.Some? && r.sent.value.midia == url && r.uploadedFile == Some(resolved)
      && (r.navigatedHome <==> status == Some(200) || status == Some(201))
  {
  }

  /** Without an image both versions agree: the default media is posted. */
  lemma NoImageVersionsAgree(userData: Option<User>, title: string, description: string, preview: Option<string>, resolved: Option<string>, uploadThrows: bool, upload: Option<string>, status: Option<int>)
    requires !Present(resolved)
    ensures HandlePostAsWritten(userData, title, description, preview, resolved, uploadThrows, status)
      == HandlePost(userData, title, description, resolved, upload, status)
  {
  }
}

=== FILE: profile.dfy ===
/**
 * The edit-profile screen: the form starts from the signed-in user's
 * profile, a new photo is picked and uploaded, and `handleSalvar` validates
 * and sends the profile, updating the user context only when the server
 * accepts it. Picker, upload and API outcomes are parameters.
 */
module Profile {
  import opened Wrappers
  import opened Text
  import opened Alerts
  import opened Session

  datatype ProfileForm = ProfileForm(
    nome: string,
    nomeUsuario: string,
    biografia: string,
    fotoPerfil: string,
    loading: bool,
    uploadingImage: bool)

  /** `x || ''` for an optional text. */
  function OrEmpty(s: Option<string>): (r: string)
    ensures s.Some? ==> r == s.value
    ensures s.None? ==> r == ""
  {
    s.GetOr("")
  }

  /** The form's first state: each field from the profile, empty when there is no profile or the field is empty or null. */
  function InitialForm(userData: Option<User>): (r: ProfileForm)
    ensures !r.loading && !r.uploadingImage
    ensures userData.None? ==> r.nome == "" && r.nomeUsuario == "" && r.biografia == "" && r.fotoPerfil == ""
    ensures userData.Some? ==>
      && r.nome == userData.value.nome && r.nomeUsuario == userData.value.nomeUsuario
      && r.biografia == OrEmpty(userData.value.biografia) && r.fotoPerfil == OrEmpty(userData.value.fotoPerfil)
  {
    match userData
    case None => ProfileForm("", "", "", "", false, false)
    case Some(u) => ProfileForm(u.nome, u.nomeUsuario, OrEmpty(u.biografia), OrEmpty(u.fotoPerfil), false, false)
  }

  // ---------------------------------------------------------------------
  // Picking a photo

  /** What the image library returned. */
  datatype Picked = Canceled | PickerFailed | Chosen(uri: string)

  const UploadFailed := Alert("Erro", "Falha ao fazer upload da imagem.")
  const PhotoFailed := Alert("Erro", "Não foi possível fazer upload da imagem.")

  datatype PickOutcome = PickOutcome(form: ProfileForm, uploaded: Option<string>, alerts: seq<Alert>)

  /**
   * `pickImage`. `upload` is the upload callback's outcome for the chosen
   * file: `None` for an error, otherwise its `secure_url` ("" when absent).
   * A cancelled picker changes nothing; a returned URL becomes the photo;
   * every other path alerts and keeps the old photo. The upload spinner is
   * off afterwards unless the picker was cancelled.
   */
  function PickImage(f: ProfileForm, picked: Picked, upload: Option<string>): (r: PickOutcome)
    ensures picked.Canceled? ==> r == PickOutcome(f, None, [])
    ensures !picked.Canceled? ==> !r.form.uploadingImage
    ensures r.uploaded.Some? <==> picked.Chosen? && Present(upload)
    ensures r.uploaded.Some? ==> r.form.fotoPerfil == upload.value && r.alerts == []
    ensures r.uploaded.None? ==> r.form.fotoPerfil == f.fotoPerfil
    ensures !picked.Canceled? && r.uploaded.None? ==> |r.alerts| > 0 && r.alerts[|r.alerts| - 1] == PhotoFailed
    ensures r.form.nome == f.nome && r.form.nomeUsuario == f.nomeUsuario && r.form.biografia == f.biografia && r.form.loading == f.loading
  {
    match picked
    case Canceled => PickOutcome(f, None, [])
    case PickerFailed => PickOutcome(f.(uploadingImage := false), None, [PhotoFailed])
    case Chosen(_) =>
      match upload
      case None => PickOutcome(f.(uploadingImage := false), None, [UploadFailed, PhotoFailed])
      case Some(url) =>
        if url != "" then PickOutcome(f.(fotoPerfil := url, uploadingImage := false), Some(url), [])
        else PickOutcome(f.(uploadingImage := false), None, [PhotoFailed])
  }

  // ---------------------------------------------------------------------
  // Saving

  const NameRequired := "O nome é obrigatório"
  const UsernameRequired := "O nome de usuário é obrigatório"
  const UsernameTaken := "Nome de usuário já está em uso"
  const SaveFallback := "Não foi possível atualizar o perfil. Tente novamente."
  const ProfileSaved := Alert("Sucesso", "Perfil atualizado com sucesso!")

  /** The body of `PUT /usuario/me`. */
  datatype ProfileUpdate = ProfileUpdate(
    nome: string,
    nomeUsuario: string,
    biografia: string,
    fotoPerfil: Option<string>,
    email: string,
    senha: string)

  /** The body sent for a form: trimmed texts, a null photo for an empty one, the profile's email, an empty password. */
  function UpdateFor(f: ProfileForm, userData: Option<User>): ProfileUpdate {
    ProfileUpdate(
      Trim(f.nome), Trim(f.nomeUsuario), Trim(f.biografia),
      if f.fotoPerfil != "" then Some(f.fotoPerfil) else None,
      if userData.Some? then userData.value.email else "",
      "")
  }

  /** The alert text for a failed save: a 409 first, whatever the message; then the server's message; then the generic text. */
  function SaveErrorText(e: HttpError): (r: string)
    ensures e.status == Some(409) ==> r == UsernameTaken
    ensures e.status != Some(409) && Present(e.message) ==> r == e.message.value
    ensures e.status != Some(409) && !Present(e.message) ==> r == SaveFallback
  {
    if e.status == Some(409) then UsernameTaken else OrElse(e.message, SaveFallback)
  }

  datatype SaveOutcome = SaveOutcome(sent: Option<ProfileUpdate>, userData: Option<User>, alert: Alert, backOnOk: bool, loading: bool)

  /**
   * `handleSalvar`, with `reply` the PUT's outcome: the profile the server
   * returns, or the error. A blank name is reported before a blank
   * username, and neither sends anything; the context takes the server's
   * profile only on success; the spinner is off afterwards.
   */
  function Save(f: ProfileForm, userData: Option<User>, reply: Result<User, HttpError>): (r: SaveOutcome)
    ensures !r.loading
    ensures IsBlank(f.nome) ==> r == SaveOutcome(None, userData, Alert("Erro", NameRequired), false, false)
    ensures !IsBlank(f.nome) && IsBlank(f.nomeUsuario) ==> r == SaveOutcome(None, userData, Alert("Erro", UsernameRequired), false, false)
    ensures r.sent.Some? <==> !IsBlank(f.nome) && !IsBlank(f.nomeUsuario)
    ensures r.sent.Some? ==> r.sent.value == UpdateFor(f, userData)
    ensures r.backOnOk <==> r.sent.Some? && reply.Success?
    ensures r.backOnOk ==> r.userData == Some(reply.value) && r.alert == ProfileSaved
    ensures !r.backOnOk ==> r.userData == userData
    ensures r.sent.Some? && reply.Failure? ==> r.alert == Alert("Erro", SaveErrorText(reply.error))
  {
    if IsBlank(f.nome) then SaveOutcome(None, userData, Alert("Erro", NameRequired), false, false)
    else if IsBlank(f.nomeUsuario) then SaveOutcome(None, userData, Alert("Erro", UsernameRequired), false, false)
    else
      var body := UpdateFor(f, userData);
      match reply
      case Success(saved) => SaveOutcome(Some(body), Some(saved), ProfileSaved, true, false)
      case Failure(e) => SaveOutcome(Some(body), userData, Alert("Erro", SaveErrorText(e)), false, false)
  }

  /**
   * What a save sends is already in the shape the server keeps: names that
   * are non-empty and carry no surrounding whitespace, a photo that is
   * either null or non-empty, and an empty password.
   */
  lemma SentProfileIsNormalised(f: ProfileForm, userData: Option<User>, reply: Result<User, HttpError>)
    requires Save(f, userData, reply).sent.Some?
    ensures var p := Save(f, userData, reply).sent.value;
      && p.nome != "" && Trim(p.nome) == p.nome
      && p.nomeUsuario != "" && Trim(p.nomeUsuario) == p.nomeUsuario
      && Trim(p.biografia) == p.biografia
      && p.fotoPerfil != Some("") && p.senha == ""
  {
    assert Save(f, userData, reply).sent.value == UpdateFor(f, userData);
    UpdateIsNormalised(f, userData);
  }

  lemma UpdateIsNormalised(f: ProfileForm, userData: Option<User>)
    requires !IsBlank(f.nome) && !IsBlank(f.nomeUsuario)
    ensures var p := UpdateFor(f, userData);
      && p.nome != "" && Trim(p.nome) == p.nome
      && p.nomeUsuario != "" && Trim(p.nomeUsuario) == p.nomeUsuario
      && Trim(p.biografia) == p.biografia
      && p.fotoPerfil != Some("") && p.senha == ""
  {
    TrimIdempotent(f.nome);
    TrimIdempotent(f.nomeUsuario);
    TrimIdempotent(f.biografia);
  }

  /** Opening the screen and saving at once resends the profile as the context holds it, once trimmed. */
  lemma SaveUnchangedProfile(u: User, reply: Result<User, HttpError>)
    requires !IsBlank(u.nome) && !IsBlank(u.nomeUsuario)
    ensures var p := Save(InitialForm(Some(u)), Some(u), reply).sent.value;
      && p.nome == Trim(u.nome) && p.nomeUsuario == Trim(u.nomeUsuario)
      && p.email == u.email
      && p.fotoPerfil == (if u.fotoPerfil == Some("") then None else u.fotoPerfil)
  {
  }

  /** A photo uploaded by the picker is the one the next save sends. */
  lemma PickedPhotoIsSaved(f: ProfileForm, uri: string, url: string, userData: Option<User>, reply: Result<User, HttpError>)
    requires url != "" && !IsBlank(f.nome) && !IsBlank(f.nomeUsuario)
    ensures Save(PickImage(f, Chosen(uri), Some(url)).form, userData, reply).sent.Some?
    ensures Save(PickImage(f, Chosen(uri), Some(url)).form, userData, reply).sent.value.fotoPerfil == Some(url)
  {
  }

  /** A failed or cancelled pick leaves what the next save sends exactly as before. */
  lemma FailedPickSavesSame(f: ProfileForm, picked: Picked, upload: Option<string>, userData: Option<User>, reply: Result<User, HttpError>)
    requires !(picked.Chosen? && Present(upload))
    ensures Save(PickImage(f, picked, upload).form, userData, reply).sent == Save(f, userData, reply).sent
  {
  }
}

=== FILE: session.dfy ===
/**
 * The session: the bearer token kept in memory by the user context and
 * mirrored in the device's key-value store, and the two HTTP interceptors
 * that read the store on every request and clear it on an authentication
 * failure. Each asynchronous handler is one step over an explicit state; the
 * outcome of every storage operation is a parameter.
 */
module Session {
  import opened Wrappers

  /** The key under which the token is persisted. */
  const TokenKey := "@lifit:token"
  const AuthorizationHeader := "Authorization"

  /** The device's key-value store. */
  type Storage = map<string, string>

  /** The profile the server returns for the signed-in user (the fields the screens read). */
  datatype User = User(
    id: int,
    nome: string,
    nomeUsuario: string,
    email: string,
    senha: string,
    biografia: Option<string>,
    fotoPerfil: Option<string>)

  /** `AsyncStorage.getItem(TokenKey)`, where the empty string counts as no token. */
  function StoredToken(storage: Storage): Option<string> {
    if TokenKey in storage && storage[TokenKey] != "" then Some(storage[TokenKey]) else None
  }

  // ---------------------------------------------------------------------
  // HTTP interceptors

  datatype RequestConfig = RequestConfig(url: string, headers: map<string, string>)

  /**
   * The request interceptor: attach `Bearer <token>` when the store holds a
   * non-empty token. `readOk` is whether `getItem` resolved; when it
   * rejects, so does the interceptor, and the request is never sent (`None`).
   */
  function AttachToken(config: RequestConfig, storage: Storage, readOk: bool): (r: Option<RequestConfig>)
    ensures r.None? <==> !readOk
    ensures r.Some? ==> r.value.url == config.url
    ensures r.Some? && StoredToken(storage).Some? ==>
      r.value.headers == config.headers[AuthorizationHeader := "Bearer " + storage[TokenKey]]
    ensures r.Some? && StoredToken(storage).None? ==> r.value == config
  {
    if !readOk then None
    else match StoredToken(storage)
      case Some(token) => Some(config.(headers := config.headers[AuthorizationHeader := "Bearer " + token]))
      case None => Some(config)
  }

  datatype Response = Response(status: int, body: string)

  /** An axios error: `status` is `error.response?.status`, `None` when no response arrived. */
  datatype HttpError = HttpError(status: Option<int>, message: Option<string>)

  type Reply = Result<Response, HttpError>

  /** Whether the response interceptor treats a reply as an invalid or expired token. */
  predicate IsAuthFailure(reply: Reply) {
    reply.Failure? && (reply.error.status == Some(401) || reply.error.status == Some(403))
  }

  /** Why the promise the caller awaits was rejected: the HTTP error, or a failed storage removal in its place. */
  datatype Rejection = HttpRejection(error: HttpError) | StorageRejection

  datatype Intercepted = Intercepted(storage: Storage, outcome: Result<Response, Rejection>, alerted: bool)

  /**
   * The response interceptor, with `storageOk` whether `removeItem` resolves.
   * A response passes through; an error is rejected again, never swallowed.
   * On a 401 or 403 the stored token is removed and the "invalid token"
   * alert shown; when that removal rejects, the alert is skipped, the key
   * stays and the caller sees the storage error instead of the HTTP error.
   * Nothing else touches the store.
   */
  function InterceptResponse(storage: Storage, reply: Reply, storageOk: bool): (r: Intercepted)
    ensures reply.Success? ==> r == Intercepted(storage, Success(reply.value), false)
    ensures reply.Failure? && !IsAuthFailure(reply) ==> r == Intercepted(storage, Failure(HttpRejection(reply.error)), false)
    ensures IsAuthFailure(reply) && storageOk ==>
      r.storage == storage - {TokenKey} && r.outcome == Failure(HttpRejection(reply.error)) && r.alerted
    ensures IsAuthFailure(reply) && !storageOk ==> r == Intercepted(storage, Failure(StorageRejection), false)
    ensures r.alerted <==> IsAuthFailure(reply) && storageOk
    ensures r.storage.Keys <= storage.Keys
  {
    match reply
    case Success(response) => Intercepted(storage, Success(response), false)
    case Failure(error) =>
      if !IsAuthFailure(reply) then Intercepted(storage, Failure(HttpRejection(error)), false)
      else if storageOk then Intercepted(storage - {TokenKey}, Failure(HttpRejection(error)), true)
      else Intercepted(storage, Failure(StorageRejection), false)
  }

  /** After a 401 or 403 whose removal succeeds, the next request leaves without an `Authorization` header it did not already have. */
  lemma NoBearerAfterAuthFailure(storage: Storage, reply: Reply, next: RequestConfig)
    requires IsAuthFailure(reply)
    ensures AttachToken(next, InterceptResponse(storage, reply, true).storage, true) == Some(next)
  {
  }

  /** When the removal fails, the stale token survives and the next request still carries it. */
  lemma FailedRemovalKeepsBearer(storage: Storage, reply: Reply, next: RequestConfig)
    requires IsAuthFailure(reply) && StoredToken(storage).Some?
    ensures AttachToken(next, InterceptResponse(storage, reply, false).storage, true)
      == Some(next.(headers := next.headers[AuthorizationHeader := "Bearer " + storage[TokenKey]]))
  {
  }

  // ---------------------------------------------------------------------
  // The user context

  /**
   * The provider's state: the profile, the token held in React state, the
   * token handed to the HTTP layer (`setApiToken`, an opaque memory slot) and
   * the persistent store.
   */
  datatype Session = Session(
    userData: Option<User>,
    token: Option<string>,
    apiToken: Option<string>,
    storage: Storage,
    isLoading: bool)

  /**
   * Start-up: a non-empty stored token becomes both the in-memory and the
   * HTTP token; a missing token or a failed read leaves both null.
   */
  function Start(storage: Storage, readFails: bool): (s: Session)
    ensures s.userData.None? && !s.isLoading && s.storage == storage
    ensures s.token == s.apiToken
    ensures s.token.Some? <==> !readFails && TokenKey in storage && storage[TokenKey] != ""
    ensures s.token.Some? ==> s.token.value == storage[TokenKey]
  {
    var loaded := if readFails then None else StoredToken(storage);
    Session(None, loaded, loaded, storage, false)
  }

  /** A handler's new state, and whether the promise it returns is rejected. */
  datatype Step = Step(session: Session, rejected: bool)

  /**
   * `setToken(t)`: the memory and HTTP tokens become `t` at once; a non-empty
   * `t` is then written to the store (a failed write is logged and
   * swallowed), anything else removes the key (a failed removal rejects).
   */
  function SetToken(s: Session, t: Option<string>, storageOk: bool): (r: Step)
    ensures r.session.token == t && r.session.apiToken == t
    ensures r.session.userData == s.userData && r.session.isLoading == s.isLoading
    ensures t.Some? && t.value != "" ==> !r.rejected
    ensures t.Some? && t.value != "" && storageOk ==> StoredToken(r.session.storage) == t
    ensures t.Some? && t.value != "" && storageOk ==> r.session.storage == s.storage[TokenKey := t.value]
    ensures (t.None? || t.value == "") && storageOk ==> r.session.storage == s.storage - {TokenKey}
    ensures (t.None? || t.value == "") && storageOk ==> TokenKey !in r.session.storage
    ensures !storageOk ==> r.session.storage == s.storage
    ensures r.rejected <==> (t.None? || t.value == "") && !storageOk
  {
    var s' := s.(token := t, apiToken := t);
    if t.Some? && t.value != "" then
      Step(if storageOk then s'.(storage := s.storage[TokenKey := t.value]) else s', false)
    else
      if storageOk then Step(s'.(storage := s.storage - {TokenKey}), false) else Step(s', true)
  }

  /** `logout()`: profile, memory token and HTTP token become null; the stored token is removed. */
  function Logout(s: Session, storageOk: bool): (r: Step)
    ensures r.session.userData.None? && r.session.token.None? && r.session.apiToken.None?
    ensures r.session.isLoading == s.isLoading
    ensures storageOk ==> r.session.storage == s.storage - {TokenKey} && StoredToken(r.session.storage).None? && !r.rejected
    ensures !storageOk ==> r.session.storage == s.storage && r.rejected
  {
    var s' := s.(userData := None, token := None, apiToken := None);
    if storageOk then Step(s'.(storage := s.storage - {TokenKey}), false) else Step(s', true)
  }

  lemma LogoutIdempotent(s: Session)
    ensures Logout(Logout(s, true).session, true) == Logout(s, true)
  {
    var once := Logout(s, true).session;
    assert once.storage - {TokenKey} == once.storage;
  }

  /** `useUser()` outside a provider throws. */
  function UseUser(context: Option<Session>): (r: Result<Session, string>)
    ensures context.Some? <==> r.Success?
    ensures context.Some? ==> r.value == context.value
    ensures context.None? ==> r.error == "errou useUser"
  {
    match context
    case Some(s) => Success(s)
    case None => Failure("errou useUser")
  }

  // ---------------------------------------------------------------------
  // Scenarios across the context and the interceptors

  /**
   * Sign in with a non-empty token, and the next request carries it as a
   * bearer header; a 401 or 403 on a later call clears the store, and the
   * request after that goes out as the caller built it.
   */
  lemma SignInThenAuthFailure(s: Session, token: string, first: RequestConfig, reply: Reply, next: RequestConfig)
    requires token != "" && IsAuthFailure(reply)
    ensures var signedIn := SetToken(s, Some(token), true).session;
      && AttachToken(first, signedIn.storage, true).Some?
      && AttachToken(first, signedIn.storage, true).value.headers[AuthorizationHeader] == "Bearer " + token
      && AttachToken(next, InterceptResponse(signedIn.storage, reply, true).storage, true) == Some(next)
  {
  }

  /**
   * A failed write leaves the in-memory token set while requests, which read
   * the store, go out without it.
   */
  lemma FailedWriteLeavesRequestsUnauthenticated(s: Session, token: string, config: RequestConfig)
    requires token != "" && StoredToken(s.storage).None?
    ensures var r := SetToken(s, Some(token), false).session;
      r.token == Some(token) && AttachToken(config, r.storage, true) == Some(config)
  {
  }

  // ---------------------------------------------------------------------
  // Restarting the app

  /** A token stored by a successful sign-in is the one the next start-up loads. */
  lemma RestartAfterSignIn(s: Session, t: string)
    requires t != ""
    ensures Start(SetToken(s, Some(t), true).session.storage, false).token == Some(t)
  {
  }

  /** After a successful logout, the next start-up loads no token. */
  lemma RestartAfterLogout(s: Session)
    ensures Start(Logout(s, true).session.storage, false).token.None?
  {
  }
}

=== FILE: swipe.dfy ===
/**
 * The swipeable wrapper around the four tab screens: a horizontal pan
 * longer than the threshold moves to the neighbouring tab, the tabs
 * forming a ring.
 */
module Swipe {
  import opened Wrappers

  /** The four tab screens, in `SCREEN_ORDER`. */
  datatype Screen = Home | Search | Chats | Profile

  const ScreenCount := 4

  /** The route each screen is registered under. */
  function RouteName(s: Screen): string {
    match s
    case Home => "index"
    case Search => "searchPage"
    case Chats => "conversas"
    case Profile => "perfil"
  }

  /** `SCREEN_ORDER.indexOf(s)` */
  function IndexOf(s: Screen): (i: nat)
    ensures i < ScreenCount
  {
    match s
    case Home => 0
    case Search => 1
    case Chats => 2
    case Profile => 3
  }

  /** `SCREEN_ORDER[i]` */
  function ScreenAt(i: nat): (s: Screen)
    requires i < ScreenCount
    ensures IndexOf(s) == i
  {
    if i == 0 then Home else if i == 1 then Search else if i == 2 then Chats else Profile
  }

  lemma ScreenAtIndexOf(s: Screen)
    ensures ScreenAt(IndexOf(s)) == s
  {
  }

  /** A swipe to the left moves to the next screen, one to the right to the previous. */
  datatype Direction = Left | Right

  /** `handleNavigation(direction)`: the index one step along the ring (the sums are never negative, so `%` is the mathematical remainder). */
  function Navigate(current: Screen, d: Direction): (r: Screen)
    ensures d == Left ==> IndexOf(r) == (IndexOf(current) + 1) % ScreenCount
    ensures d == Right ==> IndexOf(r) == (IndexOf(current) - 1 + ScreenCount) % ScreenCount
  {
    var i := IndexOf(current);
    match d
    case Left => ScreenAt((i + 1) % ScreenCount)
    case Right => ScreenAt((i - 1 + ScreenCount) % ScreenCount)
  }

  function Opposite(d: Direction): Direction {
    if d == Left then Right else Left
  }

  /** A swipe one way and then the other, in either order, comes back to the starting screen. */
  lemma NavigateBack(s: Screen, d: Direction)
    ensures Navigate(Navigate(s, d), Opposite(d)) == s
  {
    ScreenAtIndexOf(s);
  }

  /** `k` swipes the same way. */
  function NavigateTimes(s: Screen, d: Direction, k: nat): Screen
    decreases k
  {
    if k == 0 then s else NavigateTimes(Navigate(s, d), d, k - 1)
  }

  lemma ModRing(a: nat, b: nat)
    ensures (a % ScreenCount + b) % ScreenCount == (a + b) % ScreenCount
  {
    var q, r := a / ScreenCount, a % ScreenCount;
    assert a + b == ScreenCount * q + (r + b);
  }

  /** `k` swipes the same way move `k` places around the ring. */
  lemma {:induction false} NavigateTimesIndex(s: Screen, d: Direction, k: nat)
    ensures d == Left ==> IndexOf(NavigateTimes(s, d, k)) == (IndexOf(s) + k) % ScreenCount
    ensures d == Right ==> IndexOf(NavigateTimes(s, d, k)) == (IndexOf(s) + 3 * k) % ScreenCount
    decreases k
  {
    var i := IndexOf(s);
    if k == 0 {
      assert NavigateTimes(s, d, k) == s;
    } else {
      var next := Navigate(s, d);
      assert NavigateTimes(s, d, k) == NavigateTimes(next, d, k - 1);
      NavigateTimesIndex(next, d, k - 1);
      if d == Left {
        ModRing(i + 1, k - 1);
      } else {
        assert IndexOf(next) == (i + 3) % ScreenCount;
        ModRing(i + 3, 3 * (k - 1));
      }
    }
  }

  /** Four swipes the same way come back to the starting screen. */
  lemma FourSwipesReturn(s: Screen, d: Direction)
    ensures NavigateTimes(s, d, 4) == s
  {
    NavigateTimesIndex(s, d, 4);
    ScreenAtIndexOf(s);
    ScreenAtIndexOf(NavigateTimes(s, d, 4));
  }

  /** The ring wraps at both ends. */
  lemma NavigateWraps()
    ensures Navigate(Profile, Left) == Home
    ensures Navigate(Home, Right) == Profile
  {
  }

  const SwipeThreshold: real := 80.0

  function Abs(x: real): real {
    if x < 0.0 then -x else x
  }

  /** The pan gesture's end: no move unless the horizontal travel exceeds the threshold; a positive travel swipes right. */
  function SwipeDirection(translationX: real): (r: Option<Direction>)
    ensures r.None? <==> -SwipeThreshold <= translationX <= SwipeThreshold
    ensures r == Some(Right) <==> translationX > SwipeThreshold
    ensures r == Some(Left) <==> translationX < -SwipeThreshold
  {
    if Abs(translationX) > SwipeThreshold then
      if translationX > 0.0 then Some(Right) else Some(Left)
    else None
  }

  /** The screen a finished pan leads to, if any. */
  function OnPanEnd(current: Screen, translationX: real): (r: Option<Screen>)
    ensures r.None? <==> Abs(translationX) <= SwipeThreshold
    ensures translationX > SwipeThreshold ==> r == Some(Navigate(current, Right))
    ensures translationX < -SwipeThreshold ==> r == Some(Navigate(current, Left))
  {
    match SwipeDirection(translationX)
    case None => None
    case Some(d) => Some(Navigate(current, d))
  }

  /** A pan past the threshold followed by the opposite pan comes back to the starting screen. */
  lemma PanThereAndBack(s: Screen, translationX: real)
    requires Abs(translationX) > SwipeThreshold
    ensures OnPanEnd(s, translationX).Some?
    ensures OnPanEnd(OnPanEnd(s, translationX).value, -translationX) == Some(s)
  {
    if translationX > 0.0 {
      NavigateBack(s, Right);
    } else {
      NavigateBack(s, Left);
    }
  }
}

=== FILE: text.dfy ===
/**
 * The string operations the client relies on, written out over `seq<char>`:
 * decimal rendering of numbers (`String(n)`), `padStart`, the ECMAScript
 * `trim`, `startsWith`, ASCII case folding and the `<` order on strings.
 */
module Text {
  import opened Wrappers

  predicate IsDigit(c: char) {
    '0' <= c <= '9'
  }

  predicate AllDigits(s: string) {
    forall i :: 0 <= i < |s| ==> IsDigit(s[i])
  }

  function DigitValue(c: char): nat
    requires IsDigit(c)
  {
    c as int - '0' as int
  }

  function DigitChar(d: nat): (c: char)
    requires d < 10
    ensures IsDigit(c) && DigitValue(c) == d
  {
    (48 + d) as char
  }

  /** Decimal rendering of a non-negative integer, as `String(n)` prints it. */
  function NatToString(n: nat): (s: string)
    ensures AllDigits(s)
    ensures 1 <= |s|
    ensures |s| == 1 <==> n < 10
    ensures |s| > 1 ==> s[0] != '0'
    decreases n
  {
    if n < 10 then [DigitChar(n)] else NatToString(n / 10) + [DigitChar(n % 10)]
  }

  /** Decimal rendering of any integer, with a leading `-` when negative. */
  function IntToString(i: int): (s: string)
    ensures 1 <= |s|
    ensures i < 0 <==> s[0] == '-'
    ensures i >= 0 ==> AllDigits(s)
  {
    if i < 0 then "-" + NatToString(-i) else NatToString(i)
  }

  /** Reads a string of decimal digits back as a number. */
  function ParseNat(s: string): nat
    requires AllDigits(s)
    decreases |s|
  {
    if |s| == 0 then 0 else ParseNat(s[..|s| - 1]) * 10 + DigitValue(s[|s| - 1])
  }

  /** Text shaped like `IntToString`'s output: digits, possibly after a minus sign. */
  predicate IsIntText(s: string) {
    |s| > 0 && (s[0] == '-' ==> AllDigits(s[1..])) && (s[0] != '-' ==> AllDigits(s))
  }

  function ParseInt(s: string): int
    requires IsIntText(s)
  {
    if s[0] == '-' then 0 - ParseNat(s[1..]) as int else ParseNat(s)
  }

  lemma {:induction false} ParseNatToString(n: nat)
    ensures ParseNat(NatToString(n)) == n
    decreases n
  {
    if n >= 10 {
      var s := NatToString(n);
      assert s[..|s| - 1] == NatToString(n / 10);
      ParseNatToString(n / 10);
    }
  }

  lemma ParseIntToString(i: int)
    ensures ParseInt(IntToString(i)) == i
  {
    if i < 0 {
      var t := NatToString(-i);
      assert IntToString(i) == "-" + t;
      assert ("-" + t)[1..] == t;
      ParseNatToString(-i);
    } else {
      ParseNatToString(i);
    }
  }

  lemma NatToStringInjective(a: nat, b: nat)
    requires a != b
    ensures NatToString(a) != NatToString(b)
  {
    ParseNatToString(a);
    ParseNatToString(b);
  }

  lemma IntToStringIsIntText(i: int)
    ensures IsIntText(IntToString(i))
  {
    if i < 0 {
      assert IntToString(i)[1..] == NatToString(-i);
    }
  }

  /** Different numbers never print the same way. */
  lemma IntToStringInjective(i: int, j: int)
    requires IntToString(i) == IntToString(j)
    ensures i == j
  {
    ParseIntToString(i);
    ParseIntToString(j);
  }

  /** `s.padStart(width, fill)` for a one-character fill string. */
  function PadStart(s: string, width: nat, fill: char): (r: string)
    ensures |r| == if |s| >= width then |s| else width
    ensures r[|r| - |s|..] == s
    ensures forall i :: 0 <= i < |r| - |s| ==> r[i] == fill
  {
    if |s| >= width then s else seq(width - |s|, _ => fill) + s
  }

  /** `String(n).padStart(2, '0')`, the client's two-digit calendar fields. */
  function TwoDigits(n: nat): string {
    PadStart(NatToString(n), 2, '0')
  }

  lemma TwoDigitsShape(n: nat)
    requires n < 100
    ensures TwoDigits(n) == [DigitChar(n / 10), DigitChar(n % 10)]
  {
    if n >= 10 {
      assert NatToString(n / 10) == [DigitChar(n / 10)];
    }
  }

  // ---------------------------------------------------------------------
  // ECMAScript `trim`

  /** WhiteSpace and LineTerminator code points, the set `String.prototype.trim` removes. */
  predicate IsWhitespace(c: char) {
    || c == '\t' || c == '\n' || c == '\U{000B}' || c == '\U{000C}' || c == '\r'
    || c == ' ' || c == '\U{00A0}' || c == '\U{1680}'
    || ('\U{2000}' <= c <= '\U{200A}')
    || c == '\U{2028}' || c == '\U{2029}' || c == '\U{202F}' || c == '\U{205F}'
    || c == '\U{3000}' || c == '\U{FEFF}'
  }

  predicate AllWhitespace(s: string) {
    forall i :: 0 <= i < |s| ==> IsWhitespace(s[i])
  }

  function TrimStart(s: string): (r: string)
    ensures |r| <= |s| && r == s[|s| - |r|..]
    ensures AllWhitespace(s[..|s| - |r|])
    ensures |r| > 0 ==> !IsWhitespace(r[0])
    decreases |s|
  {
    if |s| > 0 && IsWhitespace(s[0]) then TrimStart(s[1..]) else s
  }

  function TrimEnd(s: string): (r: string)
    ensures |r| <= |s| && r == s[..|r|]
    ensures AllWhitespace(s[|r|..])
    ensures |r| > 0 ==> !IsWhitespace(r[|r| - 1])
    decreases |s|
  {
    if |s| > 0 && IsWhitespace(s[|s| - 1]) then TrimEnd(s[..|s| - 1]) else s
  }

  /** `s.trim()`: whitespace removed from both ends. */
  function Trim(s: string): (r: string)
    ensures |r| <= |s|
    ensures |r| > 0 ==> !IsWhitespace(r[0]) && !IsWhitespace(r[|r| - 1])
  {
    TrimEnd(TrimStart(s))
  }

  lemma AllWhitespaceConcat(a: string, b: string)
    requires AllWhitespace(a) && AllWhitespace(b)
    ensures AllWhitespace(a + b)
  {
    forall i | 0 <= i < |a + b|
      ensures IsWhitespace((a + b)[i])
    {
      if i < |a| {
        assert (a + b)[i] == a[i];
      } else {
        assert (a + b)[i] == b[i - |a|];
      }
    }
  }

  lemma {:induction false} TrimStartAllWhitespace(s: string)
    requires AllWhitespace(s)
    ensures TrimStart(s) == []
    decreases |s|
  {
    if |s| > 0 {
      assert AllWhitespace(s[1..]) by {
        forall i | 0 <= i < |s[1..]|
          ensures IsWhitespace(s[1..][i])
        {
          assert s[1..][i] == s[i + 1];
        }
      }
      TrimStartAllWhitespace(s[1..]);
    }
  }

  /** Trimming leaves nothing exactly when the text is all whitespace. */
  lemma TrimEmptyIffAllWhitespace(s: string)
    ensures Trim(s) == [] <==> AllWhitespace(s)
  {
    var t := TrimStart(s);
    if Trim(s) == [] {
      assert t[0..] == t;
      assert s == s[..|s| - |t|] + t;
      AllWhitespaceConcat(s[..|s| - |t|], t);
    }
    if AllWhitespace(s) {
      TrimStartAllWhitespace(s);
    }
  }

  /** Text with no whitespace at either end is its own trim. */
  lemma TrimUnpadded(s: string)
    requires |s| > 0 && !IsWhitespace(s[0]) && !IsWhitespace(s[|s| - 1])
    ensures Trim(s) == s
  {
    assert TrimStart(s) == s;
    assert TrimEnd(s) == s;
  }

  /** The client's `!s.trim()` test. */
  predicate IsBlank(s: string) {
    Trim(s) == []
  }

  lemma TrimIdempotent(s: string)
    ensures Trim(Trim(s)) == Trim(s)
  {
    var r := Trim(s);
    assert TrimStart(r) == r;
    assert TrimEnd(r) == r;
  }

  /** How `+` and template literals write a text that may be `null`: null is written as the four letters `null`. */
  function NullableText(s: Option<string>): (r: string)
    ensures s.Some? ==> r == s.value
    ensures s.None? ==> r == "null"
  {
    s.GetOr("null")
  }

  predicate StartsWith(s: string, prefix: string) {
    |prefix| <= |s| && s[..|prefix|] == prefix
  }

  predicate EndsWith(s: string, suffix: string) {
    |suffix| <= |s| && s[|s| - |suffix|..] == suffix
  }

  /** A text built as `a + (b + (c + d))` starts with `a` and ends with `d`. */
  lemma Affixes(a: string, b: string, c: string, d: string)
    ensures StartsWith(a + (b + (c + d)), a) && EndsWith(a + (b + (c + d)), d)
  {
    var s := a + (b + (c + d));
    assert s[..|a|] == a;
    assert s[|s| - |d|..] == (c + d)[|c|..];
  }

  /** A shared prefix can be cancelled from an equation between texts. */
  lemma PrefixCancel(p: string, a: string, b: string)
    requires p + a == p + b
    ensures a == b
  {
    assert a == (p + a)[|p|..];
    assert b == (p + b)[|p|..];
  }

  /** A shared suffix can be cancelled from an equation between texts. */
  lemma SuffixCancel(a: string, b: string, q: string)
    requires a + q == b + q
    ensures a == b
  {
    assert a == (a + q)[..|a|];
    assert b == (b + q)[..|b|];
  }

  // ---------------------------------------------------------------------
  // ASCII case folding, as a case-insensitive regular expression over ASCII letters uses it

  function ToLowerAscii(c: char): char {
    if 'A' <= c <= 'Z' then (c as int + 32) as char else c
  }

  predicate EqualsIgnoringCase(a: string, b: string) {
    |a| == |b| && forall i :: 0 <= i < |a| ==> ToLowerAscii(a[i]) == ToLowerAscii(b[i])
  }

  // ---------------------------------------------------------------------
  // The `<` order of JavaScript strings, character by character. JavaScript
  // compares UTF-16 code units and a Dafny `char` is a Unicode scalar value;
  // the two orders agree on the digit, dash, colon and `T` texts compared here.

  predicate LexLess(a: string, b: string)
    decreases |a|
  {
    |b| > 0 && (|a| == 0 || a[0] < b[0] || (a[0] == b[0] && LexLess(a[1..], b[1..])))
  }

  lemma {:induction false} LexLessIrreflexive(a: string)
    ensures !LexLess(a, a)
    decreases |a|
  {
    if |a| > 0 {
      LexLessIrreflexive(a[1..]);
    }
  }

  /** Behind a shared prefix, the order is decided by what follows it. */
  lemma {:induction false} LexLessCommonPrefix(p: string, c: string, d: string)
    ensures LexLess(p + c, p + d) <==> LexLess(c, d)
    decreases |p|
  {
    if |p| == 0 {
      assert p + c == c && p + d == d;
    } else {
      assert (p + c)[0] == (p + d)[0];
      assert (p + c)[1..] == p[1..] + c;
      assert (p + d)[1..] == p[1..] + d;
      LexLessCommonPrefix(p[1..], c, d);
    }
  }

  /** Two different fields of the same width decide the order whatever follows them. */
  lemma {:induction false} LexLessFixedWidth(a: string, b: string, c: string, d: string)
    requires |a| == |b| && a != b
    ensures LexLess(a + c, b + d) <==> LexLess(a, b)
    decreases |a|
  {
    if a[0] == b[0] {
      assert a[1..] != b[1..] by {
        assert a == [a[0]] + a[1..];
        assert b == [b[0]] + b[1..];
      }
      assert (a + c)[1..] == a[1..] + c;
      assert (b + d)[1..] == b[1..] + d;
      LexLessFixedWidth(a[1..], b[1..], c, d);
    }
  }

  lemma DigitCharOrder(a: nat, b: nat)
    requires a < 10 && b < 10
    ensures DigitChar(a) < DigitChar(b) <==> a < b
    ensures DigitChar(a) == DigitChar(b) <==> a == b
  {
    assert DigitChar(a) as int == 48 + a && DigitChar(b) as int == 48 + b;
  }

  lemma LexLessSingle(x: char, y: char)
    ensures LexLess([x], [y]) <==> x < y
  {
    assert [x][1..] == [] && [y][1..] == [];
  }

  lemma LexLessPair(x1: char, x2: char, y1: char, y2: char)
    ensures LexLess([x1, x2], [y1, y2]) <==> x1 < y1 || (x1 == y1 && x2 < y2)
  {
    assert [x1, x2][1..] == [x2] && [y1, y2][1..] == [y2];
    LexLessSingle(x2, y2);
  }

  /** Numbers printed with the same number of digits compare as strings as they compare as numbers. */
  lemma {:induction false} NatToStringOrder(a: nat, b: nat)
    requires |NatToString(a)| == |NatToString(b)|
    ensures LexLess(NatToString(a), NatToString(b)) <==> a < b
    decreases a
  {
    if a < 10 {
      DigitCharOrder(a, b);
      LexLessSingle(DigitChar(a), DigitChar(b));
    } else {
      var pa, pb := NatToString(a / 10), NatToString(b / 10);
      var xa, xb := DigitChar(a % 10), DigitChar(b % 10);
      assert NatToString(a) == pa + [xa] && NatToString(b) == pb + [xb];
      DigitCharOrder(a % 10, b % 10);
      if pa == pb {
        ParseNatToString(a / 10);
        ParseNatToString(b / 10);
        LexLessCommonPrefix(pa, [xa], [xb]);
        LexLessSingle(xa, xb);
      } else {
        NatToStringOrder(a / 10, b / 10);
        LexLessFixedWidth(pa, pb, [xa], [xb]);
      }
    }
  }

  lemma LexLessDigitPairs(a1: nat, a2: nat, b1: nat, b2: nat)
    requires a1 < 10 && a2 < 10 && b1 < 10 && b2 < 10
    ensures LexLess([DigitChar(a1), DigitChar(a2)], [DigitChar(b1), DigitChar(b2)]) <==> a1 * 10 + a2 < b1 * 10 + b2
  {
    LexLessPair(DigitChar(a1), DigitChar(a2), DigitChar(b1), DigitChar(b2));
    DigitCharOrder(a1, b1);
    DigitCharOrder(a2, b2);
  }

  /** Zero-padded two-digit fields compare as the numbers they print. */
  lemma LexLessTwoDigits(m: nat, n: nat)
    requires m < 100 && n < 100
    ensures LexLess(TwoDigits(m), TwoDigits(n)) <==> m < n
  {
    TwoDigitsShape(m);
    TwoDigitsShape(n);
    LexLessDigitPairs(m / 10, m % 10, n / 10, n % 10);
  }

  lemma TwoDigitsLength(n: nat)
    requires n < 100
    ensures |TwoDigits(n)| == 2
  {
    TwoDigitsShape(n);
  }

  /** Two-digit fields read back as the numbers they print. */
  lemma TwoDigitsValue(n: nat)
    requires n < 100
    ensures |TwoDigits(n)| == 2 && AllDigits(TwoDigits(n)) && ParseNat(TwoDigits(n)) == n
  {
    TwoDigitsShape(n);
    var x, y := DigitChar(n / 10), DigitChar(n % 10);
    assert [x, y][..1] == [x];
    assert [x][..0] == [];
    assert ParseNat([x]) == DigitValue(x);
  }

  lemma TwoDigitsDistinct(m: nat, n: nat)
    requires m < 100 && n < 100 && m != n
    ensures TwoDigits(m) != TwoDigits(n)
  {
    TwoDigitsValue(m);
    TwoDigitsValue(n);
  }
}

=== FILE: wrappers.dfy ===
/** Optional values and outcomes, standing for the `T | null | undefined` fields and the rejected promises of the client. */
module Wrappers {

  datatype Option<+T> = None | Some(value: T) {

    /** The value if present, `default` otherwise (the client's `x ?? default`). */
    function GetOr(default: T): T {
      match this
      case Some(v) => v
      case None => default
    }
  }

  /** A settled promise: fulfilled with a value, or rejected with an error. */
  datatype Result<+T, +E> = Success(value: T) | Failure(error: E)
}
